=== FILE: README.md ===
# Portfolio widgets: a Dafny model

This project models the behaviour that sits inside five React widgets of a
personal portfolio site. Each widget's logic is lifted out as immutable state
plus pure step functions, and the properties the widgets rely on are proved.

- **Shortest-path visualizer** (`src/components/ShortestPathVisualizer.tsx`).
  It covers:
  - the 20 x 50 grid, wall toggling, neighbour lookup and Manhattan distance;
  - the row-major node list and the stable distance sort;
  - the three searches `astar`, `bfs` and `dfs`;
  - reading the path back through `previousNode` links;
  - the selector dispatch.

  Modules: `PathGrid`, `PathSearch`, `PathSort`, `PathAStar`, `PathTraversal`,
  `PathOrder` and `PathVisualizer`.
  - Node state (`isVisited`, `distance`, `previousNode`) lives in a per-run side
    table, `RunState`: a visited set, a distance map and a parent map. A missing
    distance entry means `Infinity`.
  - The searches run on a board fresh from `getInitialGrid` plus wall toggles.
  - `bfs` and `dfs` are one loop over a frontier, `Traverse`, run with queue
    (`Fifo`) or stack (`Lifo`) discipline. Walls are queued and skipped when
    they come out. A node is marked visited when it is taken. Each pushed
    neighbour's parent is overwritten.
  - `astar` re-sorts the waiting nodes each round with a stable sort by the
    comparator `a.distance - b.distance`. `Infinity - Infinity` is `NaN`, which
    the sort reads as a tie. The distance stored for a neighbour is
    `parent + 1 + manhattan(neighbour, finish)`, exactly as written. Walls are
    relaxed like any other unvisited neighbour and are dropped when they reach
    the front.
- **Snake** (`src/components/SnakeGame.tsx`). It covers the collision test, the
  move (slide or grow) and food generation. The random draws are passed in as
  a sequence. Key handling and reset are covered too. Module: `Snake`.
- **Mock OS file system** (`src/components/MockOSVisualizer.tsx`). It covers
  command parsing and dispatch. The commands `touch`, `cat` (read and write),
  `ls`, `rm`, `cp` and `help` act over a map from names to files with an
  output log. Module: `MockOs`.
  - `ls` lists files in the order `Object.values` enumerates them. That order
    puts names that are array indices first, in ascending order, then the other
    names in insertion order. It is kept as a separate sequence of names: a new
    plain name goes to the end, and deleting a name closes the gap without
    reordering the rest.
- **Toy shell** (`src/components/CommandLine.tsx`). It covers tokenising, the
  seven commands, `cd` path handling and the history update. Module: `Shell`.
- **Store** (`src/components/ecommerce/EcommerceStore.tsx`). It covers adding
  and removing cart items and the total in integer cents. It also covers the
  end of a checkout and the three checkout-field patterns. Module: `Store`.

The JavaScript string built-ins the widgets use are in `JsStrings`: `trim`,
`split` and `join` on one character, ASCII lower-casing and decimal rendering.
`Basics` holds `Option` and sequence distinctness.

## Model

| member | source | states |
|---|---|---|
| `PathGrid.InitialGrid` | src/components/ShortestPathVisualizer.tsx:19-48 | The initial grid is 20 x 50. The start is exactly at (10,15) and the finish exactly at (10,35). Every node records its own coordinates, is not a wall, is unvisited, has distance Infinity and has no parent. |
| `PathGrid.CreateNode` | src/components/ShortestPathVisualizer.tsx:24-36 | A new node records its own coordinates and is open, unvisited, at distance Infinity, without a parent and off the path. It is the start exactly at (10,15) and the finish exactly at (10,35). |
| `PathGrid.ToggleWall` | src/components/ShortestPathVisualizer.tsx:277-288 | Toggling on the start or finish cell returns the grid unchanged. Anywhere else only that cell's `isWall` flips, and every other cell and the grid shape stay as they were. |
| `PathGrid.ToggleTwice` | src/components/ShortestPathVisualizer.tsx:277-288 | Toggling the same cell twice restores the grid. |
| `PathGrid.ToggleKeepsBoard` | src/components/ShortestPathVisualizer.tsx:277-288 | After a toggle the board is still 20 x 50 and untouched by any search. Start and finish are still unique and open. |
| `PathGrid.Manhattan` | src/components/ShortestPathVisualizer.tsx:328-330 | The distance is a natural number, and it is zero exactly when the two cells coincide. |
| `PathGrid.ManhattanSymmetric` | src/components/ShortestPathVisualizer.tsx:328-330 | The distance is symmetric. |
| `PathGrid.UnvisitedNeighbors` | src/components/ShortestPathVisualizer.tsx:290-298 | At most four results. Each is in bounds, orthogonally adjacent and unvisited. Every such cell is returned, in the order up, down, left, right. |
| `PathGrid.AllNodesSpec` | src/components/ShortestPathVisualizer.tsx:300-308 | The node list holds every in-bounds cell exactly once, nothing else, in strict row-major order. |
| `PathGrid.AllNodes` | src/components/ShortestPathVisualizer.tsx:300-308 | On a rectangular board the list has rows times columns entries. |
| `PathGrid.AllNodesRowMajor` | src/components/ShortestPathVisualizer.tsx:300-308 | The list runs through the rows top to bottom and each row left to right, so every node comes strictly before the ones after it in row-major order. |
| `PathSort.Compare` | src/components/ShortestPathVisualizer.tsx:310-312 | The comparator's sign is negative exactly when the first distance is finite and below the second, or the second is Infinity. It is zero exactly when the distances are equal, so Infinity ties Infinity. |
| `PathSort.CompareMatchesOrder` | src/components/ShortestPathVisualizer.tsx:311 | The comparator ranks `a` first exactly when `a <= b` with Infinity on top, and any two distances are comparable. |
| `PathSort.SortByDistance` | src/components/ShortestPathVisualizer.tsx:310-312 | The sorted list is a permutation of the input. |
| `PathSort.SortSorted` | src/components/ShortestPathVisualizer.tsx:310-312 | The sorted list's distances never decrease. |
| `PathSort.SortStable` | src/components/ShortestPathVisualizer.tsx:310-312 | Nodes with equal distance keep their relative order. |
| `PathSort.SortHeadLeast` | src/components/ShortestPathVisualizer.tsx:208-209 | After sorting, the node taken from the front has the least distance of all waiting nodes. |
| `PathAStar.Relax` | src/components/ShortestPathVisualizer.tsx:314-326 | Each neighbour ends with the lesser of its old distance and `parent + 1 + h`. Its parent becomes the settled node exactly when that offer is strictly lower. Nodes outside the neighbour list keep their distance and parent. |
| `PathAStar.RelaxSparesVisited` | src/components/ShortestPathVisualizer.tsx:314-326 | Relaxation only reaches unvisited neighbours, so a visited node's distance and parent never change. |
| `PathAStar.RelaxFrame` | src/components/ShortestPathVisualizer.tsx:314-326 | Relaxation only lowers distances, never removes one, and a new parent is always the settled node. |
| `PathAStar.AStar` | src/components/ShortestPathVisualizer.tsx:202-224 | The settled order has no repeats and no walls. It opens with the start and ends with the finish when the finish is reached. It is non-empty exactly when the start is open, and visited means settled. The parent links form a tree. Every link records the distance it offered. Settled distances never decrease along the order. When the finish is not settled, every open neighbour of a settled node was settled. |
| `PathAStar.SkipWallKeeps` | src/components/ShortestPathVisualizer.tsx:212 | Dropping a wall from the front keeps the loop invariant without settling it. |
| `PathAStar.StopAtInfinity` | src/components/ShortestPathVisualizer.tsx:213 | Stopping when the closest waiting node has distance Infinity is sound: every open neighbour of a settled node has been settled. |
| `PathAStar.SettleFinish` | src/components/ShortestPathVisualizer.tsx:215-218 | Settling the finish ends the run with the finish as the last settled node. |
| `PathAStar.SettleMonotone` | src/components/ShortestPathVisualizer.tsx:215-216 | Settling a node whose distance is at least the last settled one keeps the settled distances non-decreasing. |
| `PathAStar.RelaxRestores` | src/components/ShortestPathVisualizer.tsx:220 | Relaxing the neighbours of the node just settled restores the loop invariant. |
| `PathTraversal.Take` | src/components/ShortestPathVisualizer.tsx:232-257 | Queue discipline takes the oldest entry and stack discipline the newest. The remaining entries keep their order. |
| `PathTraversal.Traverse` | src/components/ShortestPathVisualizer.tsx:226-274 | For `bfs` and `dfs`, the visited order has no repeats and no walls. It starts with the start and ends with the finish when the finish is reached. It is non-empty exactly when the start is open. The parent links form a tree, and only the start's distance is set. When the finish is not reached, every open neighbour of a visited node was visited. |
| `PathTraversal.VisitKeeps` | src/components/ShortestPathVisualizer.tsx:235-245 | Visiting a node and pushing its unvisited neighbours, each with its parent overwritten, keeps the loop invariant. |
| `PathTraversal.FinishSettles` | src/components/ShortestPathVisualizer.tsx:236-239 | Settling the finish node ends the run with it as the last visited node, the start open, and the parent tree intact. |
| `PathTraversal.ExhaustedCloses` | src/components/ShortestPathVisualizer.tsx:231-248 | When the frontier empties, the order is non-empty exactly when the start is open, and every open neighbour of a visited node was visited. |
| `PathSearch.NoWalkToFinish` | src/components/ShortestPathVisualizer.tsx:246-248 | When a search ends without the finish, no walk through open cells leads from the start to the finish. |
| `PathSearch.SettleKeepsTree` | src/components/ShortestPathVisualizer.tsx:243 | Settling a node that has a parent, or is the start, keeps the parent links a tree over the settled nodes. |
| `PathOrder.NodesInShortestPathOrder` | src/components/ShortestPathVisualizer.tsx:332-340 | Reading back parent links terminates. The path ends at the given node, starts at a node without a parent and follows the links. Every node but the last is settled, and no node repeats. An unlinked node gives just itself. With adjacent links, consecutive nodes are orthogonal neighbours. |
| `PathVisualizer.VisualizeAlgorithm` | src/components/ShortestPathVisualizer.tsx:107-129 | An unknown selector does nothing. Otherwise the outcome satisfies `Explains`: the visited order opens with the start; the path ends at the finish, steps between neighbours and repeats no node; a reached finish gives a path from the start through visited nodes; an unreached finish gives the path [finish], and then no open walk joins start to finish. |
| `PathVisualizer.RunSearch` | src/components/ShortestPathVisualizer.tsx:113-125 | Each of the three selectors runs its search from the board's start to its finish. |
| `PathVisualizer.OutcomeSound` | src/components/ShortestPathVisualizer.tsx:127-128 | Whatever any of the three searches leaves, read back through `getNodesInShortestPathOrder`, satisfies `Explains`. |
| `PathVisualizer.UnreachedHasNoParent` | src/components/ShortestPathVisualizer.tsx:332-340 | When the finish was never reached, it has no parent, so its path is just itself. |
| `Snake.Initial` | src/components/SnakeGame.tsx:34-41 | Reset gives snake [(10,10)], direction (1,0), food (15,10), score 0, paused and not over. |
| `Snake.InitialValid` | src/components/SnakeGame.tsx:10-12 | The opening game is well formed and its food is off the snake. |
| `Snake.Move` | src/components/SnakeGame.tsx:53-77 | Nothing changes while paused or over. A colliding head sets game over and leaves the snake. Otherwise the head is prepended. A non-eating step drops the tail, keeping length and score. An eating step keeps the tail, so length and score each grow by one, and the food moves. |
| `Snake.MoveKeepsValid` | src/components/SnakeGame.tsx:43-77 | Segments stay on the board, pairwise distinct and one step apart across every move. |
| `Snake.GenerateFood` | src/components/SnakeGame.tsx:23-32 | The result is the first draw not on the snake given to it, or none when every draw hits the snake. |
| `Snake.FirstFree` | src/components/SnakeGame.tsx:23-32 | The position of the first draw off the snake, with every earlier draw on it, or -1 when all draws are on it. |
| `Snake.TickAsWritten` | src/components/SnakeGame.tsx:53-77 | A tick without eating is the plain move. When eating, the tick fails only if every draw is on the pre-move snake. Otherwise the snake grows by the new head, and the new food is a draw that is off the pre-move snake only. |
| `Snake.Tick` | src/components/SnakeGame.tsx:53-77 | As `TickAsWritten`, but the food is drawn against the grown snake. A successful eating tick leaves the new food off every segment, the new head included. |
| `Snake.FoodCanLandOnHead` | src/components/SnakeGame.tsx:69-70 | As written, new food is drawn against the pre-move snake. It can therefore land on the cell the head just moved onto. |
| `Snake.TickKeepsFoodClear` | src/components/SnakeGame.tsx:69-70 | With food drawn against the grown snake, a well-formed game keeps its food off the snake after every tick. |
| `Snake.HandleKey` | src/components/SnakeGame.tsx:80-108 | Space resets a finished game and otherwise toggles pause. Arrows are ignored while paused or over, and other keys keep the direction. An arrow never sets the exact opposite heading. |
| `Snake.TurnNeverReverses` | src/components/SnakeGame.tsx:88-107 | From any unit heading, no key sets the opposite heading. |
| `Snake.ArrowTurns` | src/components/SnakeGame.tsx:89-106 | On a running game an arrow sets its heading unless that heading is straight back, in which case the old heading stays. |
| `Snake.HandleKeyKeepsValid` | src/components/SnakeGame.tsx:80-108 | Key presses keep a well-formed game well formed. |
| `MockOs.Touch` | src/components/MockOSVisualizer.tsx:27-38 | Fewer than two arguments, or a type other than `text` or `image`, gives one error line and leaves the files alone. Otherwise the file is created. |
| `MockOs.Say` | src/components/MockOSVisualizer.tsx:212-214 | One line is appended to the log and the files are untouched. |
| `MockOs.CreateFile` | src/components/MockOSVisualizer.tsx:81-97 | An existing name gives an error and changes no file. Otherwise exactly one new empty file of size 0 appears under that name, and every other file stays. |
| `MockOs.WriteToFile` | src/components/MockOSVisualizer.tsx:99-128 | A missing file is an error. Image content must be non-empty digits and `X`. An accepted write sets that file's content and `size = length` and leaves every other file alone. |
| `MockOs.DisplayFile` | src/components/MockOSVisualizer.tsx:130-155 | A missing file is an error. Otherwise a header line names the file and its type. Text content follows it, or `(empty)` for empty text. An image is followed by its grid. No file changes. |
| `MockOs.DisplayShowsWrite` | src/components/MockOSVisualizer.tsx:119-153 | Writing non-empty text and then showing the file prints what was written. |
| `MockOs.ListFiles` | src/components/MockOSVisualizer.tsx:157-168 | With no files, `ls` prints one note. Otherwise it prints a heading and the listing of the stored names in enumeration order. |
| `MockOs.ListFilesShowsAll` | src/components/MockOSVisualizer.tsx:157-168 | In a well-kept state, `ls` prints exactly one line per stored file, each describing the file at that position. |
| `MockOs.RemoveFile` | src/components/MockOSVisualizer.tsx:170-180 | A missing name is an error. Otherwise exactly that key is removed and all other files are untouched. |
| `MockOs.CopyFile` | src/components/MockOSVisualizer.tsx:182-200 | A missing source or an existing destination is an error. Otherwise the destination becomes the source record renamed, and every other file, the source included, is unchanged. |
| `MockOs.CopyMatchesSource` | src/components/MockOSVisualizer.tsx:192-198 | A copy keeps the invariant and carries the source's type and content, and the source stays as it was. |
| `MockOs.RemoveUndoesCreate` | src/components/MockOSVisualizer.tsx:170-180 | Removing a file just created gives back the same files and the same enumeration order. |
| `MockOs.AddKey` | src/components/MockOSVisualizer.tsx:86-95 | A new name joins the enumeration once. A name that is not an array index goes last. |
| `MockOs.AddKeyKeepsOrder` | src/components/MockOSVisualizer.tsx:86-95 | After a name is added, array-index names still come first, in ascending order. |
| `MockOs.RemoveKeyKeepsOrder` | src/components/MockOSVisualizer.tsx:176-178 | Deleting a name keeps the index names first and ascending. |
| `MockOs.RemoveKeyMiddle` | src/components/MockOSVisualizer.tsx:176-178 | Deleting a name that occurs once closes the gap: the names before and after it keep their relative order. |
| `MockOs.Cat` | src/components/MockOSVisualizer.tsx:40-50 | No argument gives a usage line. One argument shows the file as `displayFile` does and changes nothing. More arguments write the remaining words, joined by single spaces. |
| `MockOs.Rm` | src/components/MockOSVisualizer.tsx:56-62 | Any argument count but one gives the usage line and changes no file. Otherwise the named file is removed as `removeFile` does. |
| `MockOs.Cp` | src/components/MockOSVisualizer.tsx:64-70 | Any argument count but two gives the usage line and changes no file. Otherwise the source is copied as `copyFile` does. |
| `MockOs.Ls` | src/components/MockOSVisualizer.tsx:52-54 | `ls` produces exactly the `listFiles` output and changes no file. |
| `MockOs.Help` | src/components/MockOSVisualizer.tsx:202-210 | `help` appends the seven help lines to the log and changes no file. |
| `MockOs.HelpIntroducesCommands` | src/components/MockOSVisualizer.tsx:202-210 | After its heading, the help text has one line per dispatched command, each introducing that command's name, in dispatch order. |
| `MockOs.Execute` | src/components/MockOSVisualizer.tsx:21-79 | The first word is lower-cased. `touch`, `cat`, `ls`, `rm`, `cp` and `help` act exactly as `Touch`, `Cat`, `Ls`, `Rm`, `Cp` and `Help` on the remaining words. An unknown word gives exactly one `Unknown command` line and no other change. The log only grows. |
| `MockOs.Submit` | src/components/MockOSVisualizer.tsx:216-223 | Blank input is ignored. Any other input is echoed as `> input` right after the old log, and the command is then executed on the echoed state. |
| `MockOs.SubmitKeeps` | src/components/MockOSVisualizer.tsx:86-126 | Every submitted line keeps every file under its own name with `size` equal to its content length. The enumeration lists each stored name once, in property order. |
| `Shell.CollapseSlashes` | src/components/CommandLine.tsx:33 | The result has no `//`, keeps every non-slash character in order, keeps the first and last characters, and is no longer than the input. |
| `Shell.CollapseIdempotent` | src/components/CommandLine.tsx:33 | Collapsing slashes twice is the same as once. |
| `Shell.ParentDir` | src/components/CommandLine.tsx:31-32 | `cd ..` keeps what precedes the last slash. When that is empty, or there is no slash, the result is `/`. |
| `Shell.UpFromRoot` | src/components/CommandLine.tsx:32 | `cd ..` at `/` stays at `/`. |
| `Shell.ChildDir` | src/components/CommandLine.tsx:33 | `cd x` gives a directory with no `//`, whose non-slash characters are those of the old directory followed by those of `x`. From a directory with no trailing or doubled slash, into a name without a slash, it is exactly the directory, `/` and the name. |
| `Shell.UpUndoesInto` | src/components/CommandLine.tsx:30-34 | From a normal directory, `cd x` for a plain name and then `cd ..` returns to the directory. |
| `Shell.Cd` | src/components/CommandLine.tsx:28-36 | An empty argument gives a usage line and no move. `..` goes to the parent and anything else to the child, with no output. |
| `Shell.Argument` | src/components/CommandLine.tsx:56-60 | The argument is the rest of the trimmed line after the first word and one space, or empty when there is only one word. |
| `Shell.Execute` | src/components/CommandLine.tsx:10-63 | Only `cd` moves. `help` and `ls` print their fixed listings. `cat`, `touch` and `rm` print a usage line for an empty argument, and otherwise one line naming the argument. `clear` prints nothing. An unknown first word yields exactly one `Command not found` line. |
| `Shell.FileCommandNamesFile` | src/components/CommandLine.tsx:37-60 | Typing `cat`, `touch` or `rm` and a name without white space prints the one line naming that file and does not move. |
| `Shell.HandleCommand` | src/components/CommandLine.tsx:65-76 | Blank input changes nothing. Otherwise the history grows by the prompt line, using the directory from before the command, then the command's output. |
| `Shell.HandleKeepsRooted` | src/components/CommandLine.tsx:28-36 | Every command line keeps the working directory absolute and free of `//`. |
| `Shell.StartNormal` | src/components/CommandLine.tsx:4-6 | The directory starts as `/home/user`, which is normal. Once the mount effect has run, the history holds the three welcome lines, the greeting first and a blank line last. |
| `Shell.WelcomeStays` | src/components/CommandLine.tsx:91-97 | Whatever is typed first, the welcome lines remain at the top of the history. |
| `Shell.HistoryKeepsPast` | src/components/CommandLine.tsx:65-76 | A command line only appends to the history: the earlier lines stay, in place. |
| `JsStrings.Words` | src/components/MockOSVisualizer.tsx:22 | The words of the trimmed line hold no space, and re-joined with single spaces they give the trimmed line back. |
| `JsStrings.Trim` | src/components/MockOSVisualizer.tsx:218 | The trimmed text neither starts nor ends with white space. It is empty exactly when the input is all white space. |
| `JsStrings.TrimIdempotent` | src/components/MockOSVisualizer.tsx:22 | Trimming twice is trimming once. |
| `JsStrings.ToLowerAscii` | src/components/MockOSVisualizer.tsx:23 | The length is kept, no upper-case ASCII letter is left, and every other character is kept. |
| `JsStrings.JoinSplit` | src/components/CommandLine.tsx:56-60 | Splitting on a character and joining with it gives the string back. |
| `JsStrings.SplitJoin` | src/components/CommandLine.tsx:32 | Joining parts free of the separator and splitting again gives the parts back. |
| `JsStrings.NatToStringRoundTrip` | src/components/MockOSVisualizer.tsx:166 | The decimal rendering of a size reads back as that number. |
| `Store.AddToCart` | src/components/ecommerce/EcommerceStore.tsx:65-67 | The product is appended at the end and the earlier items are unchanged. |
| `Store.FindIndex` | src/components/ecommerce/EcommerceStore.tsx:70 | The result is the first position holding the id, or -1 exactly when no item has it. |
| `Store.RemoveFromCart` | src/components/ecommerce/EcommerceStore.tsx:69-76 | Only the first item with the id is deleted and the rest keep their order, so the length drops by one. An absent id leaves the cart unchanged. |
| `Store.RemoveUndoesAdd` | src/components/ecommerce/EcommerceStore.tsx:65-76 | Adding a product with a new id and removing that id gives the cart back. |
| `Store.CartTotal` | src/components/ecommerce/EcommerceStore.tsx:78 | The total is at least each item's price, and it is 0 exactly when every price is 0. |
| `Store.TotalAdd` | src/components/ecommerce/EcommerceStore.tsx:78 | The empty cart totals 0, and adding a product raises the total by exactly its price. |
| `Store.TotalRemove` | src/components/ecommerce/EcommerceStore.tsx:78 | Removing an item lowers the total by exactly that item's price. A missing id leaves it unchanged. |
| `Store.TotalAppend` | src/components/ecommerce/EcommerceStore.tsx:78 | The total of two carts put end to end is the sum of their totals. |
| `Store.DigitRun` | src/components/ecommerce/EcommerceStore.tsx:255 | The character-by-character match of `[0-9]{lo,hi}` against the whole value succeeds exactly when the value is all digits with length in `lo..hi`. |
| `Store.CardAndCvvPatterns` | src/components/ecommerce/EcommerceStore.tsx:255-282 | A card number is accepted exactly when it is 16 digits, and a CVV exactly when it is 3 or 4 digits. |
| `Store.ExpiryAccepts` | src/components/ecommerce/EcommerceStore.tsx:270 | `MM/YY` is accepted exactly when the month is 01 to 12. |
| `Store.ExpiryReadBack` | src/components/ecommerce/EcommerceStore.tsx:270 | Every accepted expiry is two digits with a month of 1 to 12, a slash and two digits, and it is the rendering of that month and year. |
| `Store.OpenCheckout` | src/components/ecommerce/EcommerceStore.tsx:179-185 | The checkout opens only for a non-empty cart, and nothing else in the store changes. |
| `Store.OpenCheckoutIdempotent` | src/components/ecommerce/EcommerceStore.tsx:179-185 | Pressing Checkout twice is the same as pressing it once, and with an empty cart the store is left as it was. |
| `Store.Checkout` | src/components/ecommerce/EcommerceStore.tsx:88-112 | A form the browser refuses does not submit. A completed checkout leaves the cart empty (total 0), clears every form field and closes the dialog. |

## Left out

- Animation and timers are presentation and are not modelled: `animateAlgorithm`, `animateShortestPath`, the mouse handlers, the snake interval loop and key-listener wiring, and the checkout delays. `Store.Checkout` runs both checkout delays to their end.
- The `isPath` flag and the unused `f`, `g` and `h` node fields are not modelled, because no modelled operation writes or reads them.
- Searching a board that was already searched is not modelled, because the source never resets `isVisited`, `distance` or `previousNode`. The searches require a board fresh from `getInitialGrid` plus wall toggles.
- The shallow `grid.slice()` copy in `getNewGridWithWallToggled` also mutates the old grid's row. The model keeps grids as values, so only the new grid is described.
- `Snake.GenerateFood` returns `None` when the finite list of draws runs out. The source keeps drawing from `Math.random` with no guarantee of termination.
- How key presses interleave with ticks is not modelled. Each press is checked against the current direction, not the direction of the last move, so two quick presses can turn the snake into its neck. `Snake.HandleKey` models a single press.
- `MockOs.DisplayFile` takes the image grid as a parameter, `grid`, because the source computes the layout with `Math.sqrt` and fractional slicing.
- The password-protection branches of `MockOSVisualizer.tsx` are not modelled, because `isPasswordProtected` is never set to true and both checks are dead.
- `MockOs.Execute` lower-cases ASCII letters only, while `toLowerCase` folds all of Unicode.
- `JsStrings.ToLowerAscii` folds the ASCII letters `A`-`Z` only, while `toLowerCase` folds all of Unicode; the model has no Unicode case tables.
- `MockOs.WriteToFile` counts `size` in Unicode scalar values. `content.length` counts UTF-16 code units, so the two differ for characters outside the Basic Multilingual Plane.
- File names that coincide with members of `Object.prototype` (such as `toString`) are not modelled. The source sees them as existing files, and the model treats them as ordinary names.
- The shell's command lookup is restricted to its seven commands. The source's lookup would also find `Object.prototype` members such as `constructor`.
- `Shell.Execute` treats `clear` as printing nothing and keeping the history. The history update that follows `clear` overwrites its `setHistory([])` with the old history plus the prompt line.
- `Shell.ChildDir`: when the old directory ends in a slash or holds `//`, or the name holds a slash, its contract fixes the non-slash characters and the absence of `//` but not where each slash stands, as for `CollapseSlashes`.
- `Shell.CollapseSlashes`: its contract fixes the non-slash characters, the two ends and the absence of `//`. It does not fix where each remaining slash stands. `CollapseClean` and `CollapseIdempotent` pin it down on clean input.
- Prices are integer cents. Floating-point sums and `toFixed(2)` formatting are not modelled.
- Product descriptions and image URLs are display-only and are left out of `Product`.
- `handleInputChange` is not modelled: editing one form field is a plain record update.
- `Store.Checkout` takes the email field's `type="email"` check as the boolean `emailValid`, because the browser's email grammar is not modelled.
- Scrolling, focus and rendering effects are not modelled.

## Findings

| source | as written | input that shows it | evidently intended | confidence | as-written member | corrected member |
|---|---|---|---|---|---|---|
| src/components/SnakeGame.tsx:23-32 | `generateFood` avoids only the snake from before the move. Called while eating, it may return the cell the head has just moved onto. | Running game: snake [(10,10)] heading right, food at (11,10), first random draw (11,10). | New food lies off every segment of the grown snake, the new head included. | not executed; the counterexample is proved | `Snake.FoodCanLandOnHead` | `Snake.TickKeepsFoodClear` |

=== FILE: basics.dfy ===
/** Small shared vocabulary: an optional value and distinctness of sequences. */
module Basics {

  /** A value that may be absent (the source's `null` / `undefined`). */
  datatype Option<+T> = None | Some(value: T)

  /** No element occurs twice. */
  ghost predicate Distinct<T>(s: seq<T>) {
    forall i, j :: 0 <= i < j < |s| ==> s[i] != s[j]
  }

  /** The elements of a sequence, as a set. */
  function Elements<T>(s: seq<T>): set<T>
  {
    set x | x in s
  }
}

=== FILE: jsstrings.dfy ===
/**
  The few JavaScript string built-ins the widgets rely on, over Dafny strings
  (sequences of Unicode scalar values): `trim`, `split` and `join` with a
  one-character separator, ASCII lower-casing and decimal number formatting.
 */
module JsStrings {

  /** ECMAScript WhiteSpace and LineTerminator code points: what `trim` strips. */
  predicate IsWhiteSpace(c: char) {
    || c == '\t' || c == '\n' || c == '\U{000B}' || c == '\U{000C}' || c == '\r'
    || c == ' ' || c == '\U{00A0}' || c == '\U{1680}'
    || ('\U{2000}' <= c <= '\U{200A}')
    || c == '\U{2028}' || c == '\U{2029}' || c == '\U{202F}' || c == '\U{205F}'
    || c == '\U{3000}' || c == '\U{FEFF}'
  }

  predicate IsDigit(c: char) {
    '0' <= c <= '9'
  }

  predicate AllDigits(s: string) {
    forall i :: 0 <= i < |s| ==> IsDigit(s[i])
  }

  /** True when `trim` would leave nothing. */
  ghost predicate IsBlank(s: string) {
    forall i :: 0 <= i < |s| ==> IsWhiteSpace(s[i])
  }

  /** Drops leading white space: the result is a suffix of `s`. */
  function TrimStart(s: string): (r: string)
    ensures |r| <= |s| && r == s[|s| - |r|..]
    ensures |r| > 0 ==> !IsWhiteSpace(r[0])
    ensures forall i :: 0 <= i < |s| - |r| ==> IsWhiteSpace(s[i])
  {
    if |s| > 0 && IsWhiteSpace(s[0]) then TrimStart(s[1..]) else s
  }

  /** Drops trailing white space: the result is a prefix of `s`. */
  function TrimEnd(s: string): (r: string)
    ensures |r| <= |s| && r == s[..|r|]
    ensures |r| > 0 ==> !IsWhiteSpace(r[|r| - 1])
    ensures forall i :: |r| <= i < |s| ==> IsWhiteSpace(s[i])
  {
    if |s| > 0 && IsWhiteSpace(s[|s| - 1]) then TrimEnd(s[..|s| - 1]) else s
  }

  /** `String.prototype.trim`. */
  function Trim(s: string): (r: string)
    ensures |r| > 0 ==> !IsWhiteSpace(r[0]) && !IsWhiteSpace(r[|r| - 1])
    ensures r == "" <==> IsBlank(s)
  {
    TrimEnd(TrimStart(s))
  }

  /** Trimming is idempotent. */
  lemma TrimIdempotent(s: string)
    ensures Trim(Trim(s)) == Trim(s)
  {
    var t := Trim(s);
    assert TrimStart(t) == t;
    assert TrimEnd(t) == t;
  }

  /** `s.split(sep)` for a one-character separator: never empty, parts free of `sep`. */
  function Split(s: string, sep: char): (r: seq<string>)
    ensures |r| >= 1
    ensures forall i :: 0 <= i < |r| ==> sep !in r[i]
    decreases |s|
  {
    if |s| == 0 then [""]
    else
      var rest := Split(s[1..], sep);
      if s[0] == sep then [""] + rest
      else [[s[0]] + rest[0]] + rest[1..]
  }

  /** `parts.join(sep)`; the empty list joins to the empty string. */
  function Join(parts: seq<string>, sep: char): string
  {
    if |parts| == 0 then ""
    else if |parts| == 1 then parts[0]
    else parts[0] + [sep] + Join(parts[1..], sep)
  }

  /** Splitting and re-joining on the same separator gives back the string. */
  lemma {:induction false} JoinSplit(s: string, sep: char)
    ensures Join(Split(s, sep), sep) == s
    decreases |s|
  {
    if |s| > 0 {
      var rest := Split(s[1..], sep);
      JoinSplit(s[1..], sep);
      if s[0] == sep {
        assert Split(s, sep) == [""] + rest;
        assert ([""] + rest)[1..] == rest;
      } else {
        var r := Split(s, sep);
        assert r == [[s[0]] + rest[0]] + rest[1..];
        if |rest| == 1 {
          assert r == [[s[0]] + rest[0]];
        } else {
          assert r[1..] == rest[1..];
          assert Join(rest, sep) == rest[0] + [sep] + Join(rest[1..], sep);
        }
      }
    }
  }

  /** A part free of the separator splits to itself. */
  lemma {:induction false} SplitNoSep(p: string, sep: char)
    requires sep !in p
    ensures Split(p, sep) == [p]
    decreases |p|
  {
    if |p| > 0 {
      SplitNoSep(p[1..], sep);
      assert [p[0]] + p[1..] == p;
    }
  }

  /** Splitting `p + sep + s`, with `p` free of the separator, peels off `p`. */
  lemma {:induction false} SplitCons(p: string, sep: char, s: string)
    requires sep !in p
    ensures Split(p + [sep] + s, sep) == [p] + Split(s, sep)
    decreases |p|
  {
    if |p| == 0 {
      assert p + [sep] + s == [sep] + s;
      assert ([sep] + s)[1..] == s;
    } else {
      var w := p + [sep] + s;
      assert w[1..] == p[1..] + [sep] + s;
      SplitCons(p[1..], sep, s);
      assert [p[0]] + p[1..] == p;
    }
  }

  /** Joining parts that hold no separator and splitting again gives back the parts. */
  lemma {:induction false} SplitJoin(parts: seq<string>, sep: char)
    requires |parts| >= 1
    requires forall i :: 0 <= i < |parts| ==> sep !in parts[i]
    ensures Split(Join(parts, sep), sep) == parts
    decreases |parts|
  {
    if |parts| == 1 {
      SplitNoSep(parts[0], sep);
    } else {
      SplitJoin(parts[1..], sep);
      SplitCons(parts[0], sep, Join(parts[1..], sep));
      assert [parts[0]] + parts[1..] == parts;
    }
  }

  /** `line.trim().split(' ')`: the words of a command line; re-joined with single spaces they give back the trimmed line. */
  function Words(command: string): (r: seq<string>)
    ensures |r| >= 1
    ensures Join(r, ' ') == Trim(command)
    ensures forall i :: 0 <= i < |r| ==> ' ' !in r[i]
  {
    JoinSplit(Trim(command), ' ');
    Split(Trim(command), ' ')
  }

  /** Splitting `a + sep + b`, with `b` free of the separator, ends with the part `b`. */
  lemma {:induction false} SplitSnoc(a: string, sep: char, b: string)
    requires sep !in b
    ensures Split(a + [sep] + b, sep) == Split(a, sep) + [b]
    decreases |a|
  {
    var w := a + [sep] + b;
    if |a| == 0 {
      assert w == [sep] + b && w[1..] == b;
      SplitNoSep(b, sep);
    } else {
      assert w[1..] == a[1..] + [sep] + b;
      SplitSnoc(a[1..], sep, b);
      var rest := Split(a[1..], sep);
      assert Split(w[1..], sep) == rest + [b];
      if a[0] != sep {
        assert (rest + [b])[0] == rest[0];
        assert (rest + [b])[1..] == rest[1..] + [b];
      }
    }
  }

  /** Joining a list extended at the end adds one separator and the new part. */
  lemma {:induction false} JoinSnoc(parts: seq<string>, p: string, sep: char)
    requires |parts| >= 1
    ensures Join(parts + [p], sep) == Join(parts, sep) + [sep] + p
    decreases |parts|
  {
    var w := parts + [p];
    if |parts| > 1 {
      assert w[1..] == parts[1..] + [p];
      JoinSnoc(parts[1..], p, sep);
    } else {
      assert w[1..] == [p];
    }
  }

  /** ASCII upper-case letters become lower-case, everything else is kept. */
  function ToLowerAscii(s: string): (r: string)
    ensures |r| == |s|
    ensures forall i :: 0 <= i < |r| ==> !('A' <= r[i] <= 'Z')
    ensures forall i :: 0 <= i < |s| && !('A' <= s[i] <= 'Z') ==> r[i] == s[i]
  {
    seq(|s|, i requires 0 <= i < |s| =>
      if 'A' <= s[i] <= 'Z' then (s[i] as int + 32) as char else s[i])
  }

  /** Decimal digit value of a digit character. */
  function DigitValue(c: char): (d: nat)
    requires IsDigit(c)
    ensures d < 10
  {
    c as int - '0' as int
  }

  /** Number of a run of decimal digits, most significant first. */
  function DigitsValue(s: string): nat
    requires AllDigits(s)
  {
    if |s| == 0 then 0 else 10 * DigitsValue(s[..|s| - 1]) + DigitValue(s[|s| - 1])
  }

  /** Decimal rendering of a non-negative integer, as JavaScript prints it. */
  function NatToString(n: nat): (r: string)
    ensures |r| >= 1 && AllDigits(r)
    ensures n > 0 ==> r[0] != '0'
    ensures n == 0 ==> r == "0"
  {
    if n < 10 then ['0' + n as char]
    else NatToString(n / 10) + ['0' + (n % 10) as char]
  }

  /** Reading the rendered digits back gives the number. */
  lemma {:induction false} NatToStringRoundTrip(n: nat)
    ensures DigitsValue(NatToString(n)) == n
  {
    var r := NatToString(n);
    if n < 10 {
      assert r[..0] == "";
    } else {
      NatToStringRoundTrip(n / 10);
      assert r[..|r| - 1] == NatToString(n / 10);
    }
  }
}

=== FILE: mockos.dfy ===
/**
  The flat file system of src/components/MockOSVisualizer.tsx: a map from names
  to files plus an output log, driven by one command line at a time.
 */
module MockOs {
  import opened Basics
  import opened JsStrings

  datatype FileType = Text | Image

  /** A stored file; `size` is the length of `content`. */
  datatype File = File(name: string, ftype: FileType, content: string, size: nat)

  /**
    The component's state: the files by name, their names in the order
    `Object.values` enumerates them, and the output log.
   */
  datatype Os = Os(files: map<string, File>, order: seq<string>, output: seq<string>)

  /** The state the component mounts with. */
  const Boot: Os := Os(map[], [], [])

  function TypeName(t: FileType): string {
    match t
    case Text => "text"
    case Image => "image"
  }

  /** `addOutput`: one more line at the end of the log. */
  function Say(os: Os, line: string): (r: Os)
    ensures r.files == os.files && r.order == os.order
    ensures r.output == os.output + [line]
  {
    os.(output := os.output + [line])
  }

  // ---------------------------------------------------------------------
  // Property order
  // ---------------------------------------------------------------------

  /** A name JavaScript treats as an array index: canonical decimal below 2^32 - 1. */
  predicate IsArrayIndex(k: string) {
    && |k| > 0 && AllDigits(k) && (k[0] != '0' || |k| == 1)
    && DigitsValue(k) < 0xFFFF_FFFF
  }

  /** `a` may be enumerated before `b`: an index comes before every non-index, and indices ascend. */
  predicate Precedes(a: string, b: string) {
    IsArrayIndex(b) ==> IsArrayIndex(a) && DigitsValue(a) <= DigitsValue(b)
  }

  /** Own-property order: array indices first, ascending, then the other names. */
  ghost predicate PropertyOrder(order: seq<string>) {
    forall i, j :: 0 <= i < j < |order| ==> Precedes(order[i], order[j])
  }

  /**
    Where defining a new property puts its name: an array index goes before the
    first name that is not an index or is a larger index, any other name goes last.
   */
  function AddKey(order: seq<string>, k: string): (r: seq<string>)
    ensures |r| == |order| + 1
    ensures multiset(r) == multiset(order) + multiset{k}
    ensures !IsArrayIndex(k) ==> r == order + [k]
  {
    if !IsArrayIndex(k) then order + [k]
    else if |order| == 0 then [k]
    else if !IsArrayIndex(order[0]) || DigitsValue(order[0]) > DigitsValue(k) then [k] + order
    else
      assert order == [order[0]] + order[1..];
      [order[0]] + AddKey(order[1..], k)
  }

  /** `delete`: the name leaves the order and every other name keeps its place. */
  function RemoveKey(order: seq<string>, k: string): (r: seq<string>)
    ensures forall x :: x in r <==> x in order && x != k
  {
    if |order| == 0 then []
    else if order[0] == k then RemoveKey(order[1..], k)
    else [order[0]] + RemoveKey(order[1..], k)
  }

  /** Adding a name keeps the property order. */
  lemma {:induction false} AddKeyKeepsOrder(order: seq<string>, k: string)
    requires PropertyOrder(order)
    ensures PropertyOrder(AddKey(order, k))
    decreases |order|
  {
    var r := AddKey(order, k);
    if !IsArrayIndex(k) {
      forall i, j | 0 <= i < j < |r|
        ensures Precedes(r[i], r[j])
      {
        if j < |order| {
          assert r[i] == order[i] && r[j] == order[j];
        }
      }
    } else if |order| == 0 {
    } else if !IsArrayIndex(order[0]) || DigitsValue(order[0]) > DigitsValue(k) {
      forall i, j | 0 <= i < j < |r|
        ensures Precedes(r[i], r[j])
      {
        if i == 0 {
          if j > 1 {
            assert Precedes(order[0], order[j - 1]);
          }
        } else {
          assert r[i] == order[i - 1] && r[j] == order[j - 1];
        }
      }
    } else {
      var t := AddKey(order[1..], k);
      AddKeyKeepsOrder(order[1..], k);
      assert multiset(t) == multiset(order[1..]) + multiset{k};
      forall i, j | 0 <= i < j < |r|
        ensures Precedes(r[i], r[j])
      {
        if i == 0 {
          assert r[j] == t[j - 1] && r[j] in multiset(t);
          if r[j] != k {
            assert r[j] in multiset(order[1..]);
            var m :| 0 <= m < |order[1..]| && order[1..][m] == r[j];
            assert Precedes(order[0], order[m + 1]);
          }
        } else {
          assert r[i] == t[i - 1] && r[j] == t[j - 1];
        }
      }
    }
  }

  /** Removing a name keeps the property order. */
  lemma {:induction false} RemoveKeyKeepsOrder(order: seq<string>, k: string)
    requires PropertyOrder(order)
    ensures PropertyOrder(RemoveKey(order, k))
    decreases |order|
  {
    if |order| > 0 {
      var t := RemoveKey(order[1..], k);
      RemoveKeyKeepsOrder(order[1..], k);
      if order[0] != k {
        var r := [order[0]] + t;
        forall i, j | 0 <= i < j < |r|
          ensures Precedes(r[i], r[j])
        {
          if i == 0 {
            assert r[j] == t[j - 1] && r[j] in order[1..];
            var m :| 0 <= m < |order[1..]| && order[1..][m] == r[j];
            assert Precedes(order[0], order[m + 1]);
          } else {
            assert r[i] == t[i - 1] && r[j] == t[j - 1];
          }
        }
      }
    }
  }

  /** Adding a fresh name to a repetition-free order keeps it repetition-free. */
  lemma {:induction false} AddKeyDistinct(order: seq<string>, k: string)
    requires Distinct(order) && k !in order
    ensures Distinct(AddKey(order, k))
    decreases |order|
  {
    var r := AddKey(order, k);
    if !IsArrayIndex(k) || |order| == 0 {
    } else if !IsArrayIndex(order[0]) || DigitsValue(order[0]) > DigitsValue(k) {
      forall i, j | 0 <= i < j < |r|
        ensures r[i] != r[j]
      {
        if i > 0 {
          assert r[i] == order[i - 1] && r[j] == order[j - 1];
        }
      }
    } else {
      var t := AddKey(order[1..], k);
      AddKeyDistinct(order[1..], k);
      assert multiset(t) == multiset(order[1..]) + multiset{k};
      forall i, j | 0 <= i < j < |r|
        ensures r[i] != r[j]
      {
        if i == 0 {
          assert r[j] == t[j - 1] && r[j] in multiset(t);
          assert r[j] != k ==> r[j] in multiset(order[1..]);
        } else {
          assert r[i] == t[i - 1] && r[j] == t[j - 1];
        }
      }
    }
  }

  /** Removing a name from a repetition-free order keeps it repetition-free. */
  lemma {:induction false} RemoveKeyDistinct(order: seq<string>, k: string)
    requires Distinct(order)
    ensures Distinct(RemoveKey(order, k))
    decreases |order|
  {
    if |order| > 0 {
      var t := RemoveKey(order[1..], k);
      RemoveKeyDistinct(order[1..], k);
      if order[0] != k {
        var r := [order[0]] + t;
        forall i, j | 0 <= i < j < |r|
          ensures r[i] != r[j]
        {
          if i == 0 {
            assert r[j] == t[j - 1] && r[j] in order[1..];
          } else {
            assert r[i] == t[i - 1] && r[j] == t[j - 1];
          }
        }
      }
    }
  }

  /** Removing a name that is not there changes nothing. */
  lemma {:induction false} RemoveAbsentKey(order: seq<string>, k: string)
    requires k !in order
    ensures RemoveKey(order, k) == order
    decreases |order|
  {
    if |order| > 0 {
      RemoveAbsentKey(order[1..], k);
      assert order == [order[0]] + order[1..];
    }
  }

  /** Deleting a freshly added name gives the order back. */
  lemma {:induction false} RemoveUndoesAddKey(order: seq<string>, k: string)
    requires k !in order
    ensures RemoveKey(AddKey(order, k), k) == order
    decreases |order|
  {
    var r := AddKey(order, k);
    if !IsArrayIndex(k) {
      RemoveAfterAppend(order, k);
    } else if |order| == 0 {
    } else if !IsArrayIndex(order[0]) || DigitsValue(order[0]) > DigitsValue(k) {
      assert r[1..] == order;
      RemoveAbsentKey(order, k);
    } else {
      assert r[1..] == AddKey(order[1..], k);
      RemoveUndoesAddKey(order[1..], k);
      assert order == [order[0]] + order[1..];
    }
  }

  /** Deleting a name appended to an order that lacks it gives the order back. */
  lemma {:induction false} RemoveAfterAppend(order: seq<string>, k: string)
    requires k !in order
    ensures RemoveKey(order + [k], k) == order
    decreases |order|
  {
    if |order| == 0 {
      assert RemoveKey([k], k) == RemoveKey([], k);
    } else {
      assert (order + [k])[1..] == order[1..] + [k];
      RemoveAfterAppend(order[1..], k);
      assert order == [order[0]] + order[1..];
    }
  }

  /** Deleting from two orders laid end to end deletes from each in turn. */
  lemma {:induction false} RemoveKeyConcat(a: seq<string>, b: seq<string>, k: string)
    ensures RemoveKey(a + b, k) == RemoveKey(a, k) + RemoveKey(b, k)
    decreases |a|
  {
    if |a| == 0 {
      assert a + b == b;
    } else {
      assert (a + b)[1..] == a[1..] + b;
      RemoveKeyConcat(a[1..], b, k);
    }
  }

  /**
    `delete` of a name stored once, between `a` and `b`, leaves exactly `a`
    followed by `b`: every other name keeps its place relative to the rest.
   */
  lemma RemoveKeyMiddle(a: seq<string>, k: string, b: seq<string>)
    requires k !in a && k !in b
    ensures RemoveKey(a + [k] + b, k) == a + b
  {
    RemoveKeyConcat(a + [k], b, k);
    RemoveAfterAppend(a, k);
    RemoveAbsentKey(b, k);
  }

  // ---------------------------------------------------------------------
  // The state invariant
  // ---------------------------------------------------------------------

  /**
    Every stored file sits under its own name and records its content's length;
    the order lists each stored name exactly once, in property order.
   */
  ghost predicate WellKept(os: Os) {
    && (forall k :: k in os.files ==> os.files[k].name == k && os.files[k].size == |os.files[k].content|)
    && (forall k :: k in os.files <==> k in os.order)
    && Distinct(os.order)
    && PropertyOrder(os.order)
  }

  /** The empty file system keeps the invariant. */
  lemma BootWellKept()
    ensures WellKept(Boot) && Boot.output == []
  {
  }

  // ---------------------------------------------------------------------
  // File operations
  // ---------------------------------------------------------------------

  /** `createFile`: a new empty file of the given type, or an error when the name is taken. */
  function CreateFile(os: Os, name: string, t: FileType): (r: Os)
    ensures r.output == os.output + [if name in os.files then "Error: File " + name + " already exists"
                                     else "Created " + TypeName(t) + " file: " + name]
    ensures name in os.files ==> r.files == os.files && r.order == os.order
    ensures name !in os.files ==>
      && r.files.Keys == os.files.Keys + {name}
      && r.files[name] == File(name, t, "", 0)
      && (forall k :: k in os.files ==> r.files[k] == os.files[k])
      && r.order == AddKey(os.order, name)
  {
    if name in os.files then Say(os, "Error: File " + name + " already exists")
    else
      var added := os.(files := os.files[name := File(name, t, "", 0)], order := AddKey(os.order, name));
      Say(added, "Created " + TypeName(t) + " file: " + name)
  }

  /** The content `/^[0-9X]+$/` accepts: at least one character, each a digit or `X`. */
  predicate ImageContent(s: string) {
    |s| > 0 && forall i :: 0 <= i < |s| ==> IsDigit(s[i]) || s[i] == 'X'
  }

  /** A file takes `content`: any text, or image content for an image. */
  predicate Accepts(f: File, content: string) {
    f.ftype == Text || ImageContent(content)
  }

  /**
    `writeToFile`: the named file gets the new content and its length as size,
    and no other file changes; a missing file or content an image refuses is an
    error that leaves the files alone.
   */
  function WriteToFile(os: Os, name: string, content: string): (r: Os)
    ensures r.order == os.order
    ensures name !in os.files ==> r == Say(os, "Error: File " + name + " does not exist")
    ensures name in os.files && !Accepts(os.files[name], content) ==>
      r == Say(os, "Error: Invalid image content. Use numbers and X only")
    ensures name in os.files && Accepts(os.files[name], content) ==>
      && r.files.Keys == os.files.Keys
      && r.files[name] == os.files[name].(content := content, size := |content|)
      && (forall k :: k in os.files && k != name ==> r.files[k] == os.files[k])
      && r.output == os.output + ["Updated file: " + name]
  {
    if name !in os.files then Say(os, "Error: File " + name + " does not exist")
    else
      var f := os.files[name];
      if f.ftype == Image && !ImageContent(content) then
        Say(os, "Error: Invalid image content. Use numbers and X only")
      else
        var written := os.(files := os.files[name := f.(content := content, size := |content|)]);
        Say(written, "Updated file: " + name)
  }

  /**
    `displayFile`: a header line, then the content (`(empty)` for empty text);
    an image is shown through `grid`, which stands for the square layout the
    component computes with floating point. Only the log changes.
   */
  function DisplayFile(os: Os, name: string, grid: string -> string): (r: Os)
    ensures r.files == os.files && r.order == os.order
    ensures name !in os.files ==> r.output == os.output + ["Error: File " + name + " does not exist"]
    ensures name in os.files ==>
      var f := os.files[name];
      && |r.output| == |os.output| + 2
      && r.output[..|os.output|] == os.output
      && r.output[|os.output|] == "File: " + name + " (" + TypeName(f.ftype) + ")"
      && (f.ftype == Text && f.content != "" ==> r.output[|os.output| + 1] == f.content)
      && (f.ftype == Text && f.content == "" ==> r.output[|os.output| + 1] == "(empty)")
      && (f.ftype == Image ==> r.output[|os.output| + 1] == grid(f.content))
  {
    if name !in os.files then Say(os, "Error: File " + name + " does not exist")
    else
      var f := os.files[name];
      var header := Say(os, "File: " + name + " (" + TypeName(f.ftype) + ")");
      match f.ftype
      case Image => Say(header, grid(f.content))
      case Text => Say(header, if f.content == "" then "(empty)" else f.content)
  }

  /** One `ls` line. */
  function Describe(f: File): string {
    f.name + " (" + TypeName(f.ftype) + ", " + NatToString(f.size) + " bytes)"
  }

  /** The `ls` lines for the names of `order` that are stored, in that order. */
  function Listing(files: map<string, File>, order: seq<string>): (r: seq<string>)
    ensures |r| <= |order|
  {
    if |order| == 0 then []
    else if order[0] in files then [Describe(files[order[0]])] + Listing(files, order[1..])
    else Listing(files, order[1..])
  }

  /** With every listed name stored, the listing describes each of them at its position. */
  lemma {:induction false} ListingComplete(files: map<string, File>, order: seq<string>)
    requires forall k :: k in order ==> k in files
    ensures |Listing(files, order)| == |order|
    ensures forall i :: 0 <= i < |order| ==> Listing(files, order)[i] == Describe(files[order[i]])
    decreases |order|
  {
    if |order| > 0 {
      ListingComplete(files, order[1..]);
      assert forall i :: 1 <= i < |order| ==> order[i] == order[1..][i - 1];
    }
  }

  /** `listFiles`: a heading and one line per file, or a note that there are none. */
  function ListFiles(os: Os): (r: Os)
    ensures r.files == os.files && r.order == os.order
    ensures |os.files| == 0 ==> r.output == os.output + ["No files in the system"]
    ensures |os.files| > 0 ==> r.output == os.output + ["Files:"] + Listing(os.files, os.order)
  {
    if |os.files| == 0 then Say(os, "No files in the system")
    else os.(output := os.output + ["Files:"] + Listing(os.files, os.order))
  }

  /** In a well-kept state, `ls` prints one line per stored file, in enumeration order. */
  lemma ListFilesShowsAll(os: Os)
    requires WellKept(os) && |os.files| > 0
    ensures var r := ListFiles(os);
      && |r.output| == |os.output| + 1 + |os.order|
      && forall i :: 0 <= i < |os.order| ==> r.output[|os.output| + 1 + i] == Describe(os.files[os.order[i]])
  {
    ListingComplete(os.files, os.order);
  }

  /** `removeFile`: exactly the named file goes; a missing name is an error. */
  function RemoveFile(os: Os, name: string): (r: Os)
    ensures name !in os.files ==> r == Say(os, "Error: File " + name + " does not exist")
    ensures name in os.files ==>
      && r.files == os.files - {name}
      && r.order == RemoveKey(os.order, name)
      && r.output == os.output + ["Removed file: " + name]
  {
    if name !in os.files then Say(os, "Error: File " + name + " does not exist")
    else
      var removed := os.(files := os.files - {name}, order := RemoveKey(os.order, name));
      Say(removed, "Removed file: " + name)
  }

  /**
    `copyFile`: the destination becomes the source record under the new name;
    a missing source or an existing destination is an error.
   */
  function CopyFile(os: Os, source: string, dest: string): (r: Os)
    ensures source !in os.files ==> r == Say(os, "Error: Source file " + source + " does not exist")
    ensures source in os.files && dest in os.files ==>
      r == Say(os, "Error: Destination file " + dest + " already exists")
    ensures source in os.files && dest !in os.files ==>
      && r.files.Keys == os.files.Keys + {dest}
      && r.files[dest] == os.files[source].(name := dest)
      && (forall k :: k in os.files ==> r.files[k] == os.files[k])
      && r.order == AddKey(os.order, dest)
      && r.output == os.output + ["Copied " + source + " to " + dest]
  {
    if source !in os.files then Say(os, "Error: Source file " + source + " does not exist")
    else if dest in os.files then Say(os, "Error: Destination file " + dest + " already exists")
    else
      var copied := os.(files := os.files[dest := os.files[source].(name := dest)],
                        order := AddKey(os.order, dest));
      Say(copied, "Copied " + source + " to " + dest)
  }

  /** A help line for command `c`: two spaces, the name, a space, then the rest of the line. */
  function HelpEntry(c: string, rest: string): string {
    "  " + c + " " + rest
  }

  /** The `help` text. */
  const HelpLines: seq<string> := [
    "Available commands:",
    HelpEntry("touch", "<filename> <type>  - Create a new file (type: text/image)"),
    HelpEntry("cat", "<filename> [content] - Display or update file content"),
    HelpEntry("ls", "                      - List all files"),
    HelpEntry("rm", "<filename>            - Remove a file"),
    HelpEntry("cp", "<source> <dest>       - Copy a file"),
    HelpEntry("help", "                    - Show this help message")
  ]

  // ---------------------------------------------------------------------
  // Commands
  // ---------------------------------------------------------------------

  /** The log of `r` extends the log of `os` by at least one line. */
  predicate Grows(os: Os, r: Os) {
    |r.output| > |os.output| && r.output[..|os.output|] == os.output
  }

  /** The file type a `touch` argument names. */
  function ParseType(s: string): (r: Option<FileType>)
    ensures r.Some? <==> s == "text" || s == "image"
    ensures r.Some? ==> TypeName(r.value) == s
  {
    if s == "text" then Some(Text)
    else if s == "image" then Some(Image)
    else None
  }

  /** The commands `executeCommand` knows. */
  predicate KnownCommand(cmd: string) {
    cmd in {"touch", "cat", "ls", "rm", "cp", "help"}
  }

  /** `touch <name> <type>`: fewer than two arguments or an unknown type is an error that changes no file. */
  function Touch(os: Os, args: seq<string>): (r: Os)
    ensures Grows(os, r)
    ensures |args| < 2 ==> r == Say(os, "Usage: touch <filename> <type>")
    ensures |args| >= 2 && args[1] != "text" && args[1] != "image" ==>
      r == Say(os, "Error: type must be text or image")
    ensures |args| >= 2 && (args[1] == "text" || args[1] == "image") ==>
      r == CreateFile(os, args[0], if args[1] == "text" then Text else Image)
  {
    if |args| < 2 then Say(os, "Usage: touch <filename> <type>")
    else match ParseType(args[1])
      case None => Say(os, "Error: type must be text or image")
      case Some(t) => CreateFile(os, args[0], t)
  }

  /** `cat <name>` shows a file, `cat <name> <words>` writes the words, joined by single spaces. */
  function Cat(os: Os, args: seq<string>, grid: string -> string): (r: Os)
    ensures Grows(os, r)
    ensures |args| < 1 ==> r == Say(os, "Usage: cat <filename> [content]")
    ensures |args| <= 1 ==> r.files == os.files && r.order == os.order
    ensures |args| == 1 ==> r == DisplayFile(os, args[0], grid)
    ensures |args| > 1 ==> r == WriteToFile(os, args[0], Join(args[1..], ' '))
  {
    if |args| < 1 then Say(os, "Usage: cat <filename> [content]")
    else if |args| == 1 then DisplayFile(os, args[0], grid)
    else WriteToFile(os, args[0], Join(args[1..], ' '))
  }

  /** `ls`: the listing, with the files untouched. */
  function Ls(os: Os): (r: Os)
    ensures Grows(os, r)
    ensures r.files == os.files && r.order == os.order
    ensures r == ListFiles(os)
  {
    ListFiles(os)
  }

  /** `rm <name>`: exactly one argument, else a usage line that changes no file. */
  function Rm(os: Os, args: seq<string>): (r: Os)
    ensures Grows(os, r)
    ensures |args| != 1 ==> r == Say(os, "Usage: rm <filename>")
    ensures |args| == 1 ==> r == RemoveFile(os, args[0])
  {
    if |args| != 1 then Say(os, "Usage: rm <filename>") else RemoveFile(os, args[0])
  }

  /** `cp <source> <dest>`: exactly two arguments, else a usage line that changes no file. */
  function Cp(os: Os, args: seq<string>): (r: Os)
    ensures Grows(os, r)
    ensures |args| != 2 ==> r == Say(os, "Usage: cp <source> <destination>")
    ensures |args| == 2 ==> r == CopyFile(os, args[0], args[1])
  {
    if |args| != 2 then Say(os, "Usage: cp <source> <destination>") else CopyFile(os, args[0], args[1])
  }

  /** `help`: the help text, with the files untouched. */
  function Help(os: Os): (r: Os)
    ensures Grows(os, r)
    ensures r.files == os.files && r.order == os.order
    ensures r.output == os.output + HelpLines
  {
    os.(output := os.output + HelpLines)
  }

  /** The names `executeCommand` dispatches on. */
  const CommandNames: seq<string> := ["touch", "cat", "ls", "rm", "cp", "help"]

  /** A help line that introduces command `c`: two spaces, the name, then a space. */
  predicate Introduces(line: string, c: string) {
    |line| > |c| + 2 && line[..|c| + 2] == "  " + c && line[|c| + 2] == ' '
  }

  /**
    The help text introduces every command `executeCommand` knows, in the
    order the dispatch tests them, one per line after the heading.
   */
  lemma HelpIntroducesCommands()
    ensures |HelpLines| == |CommandNames| + 1
    ensures forall i :: 0 <= i < |CommandNames| ==> Introduces(HelpLines[i + 1], CommandNames[i])
  {
    forall i | 0 <= i < |CommandNames|
      ensures Introduces(HelpLines[i + 1], CommandNames[i])
    {
      var line := HelpLines[i + 1];
      var rest := line[|CommandNames[i]| + 3..];
      assert line == HelpEntry(CommandNames[i], rest);
      EntryIntroduces(CommandNames[i], rest);
    }
  }

  /** Every help entry introduces its command. */
  lemma EntryIntroduces(c: string, rest: string)
    ensures Introduces(HelpEntry(c, rest), c)
  {
    var line := HelpEntry(c, rest);
    assert line[..|c| + 2] == "  " + c;
  }

  /**
    `executeCommand`: the first word, lower-cased, picks the command and the
    remaining words are its arguments. Only the log grows; the files change
    only under `touch`, `cat`, `rm` and `cp`; an unknown word adds one line.
   */
  function Execute(os: Os, command: string, grid: string -> string): (r: Os)
    ensures Grows(os, r)
    ensures var cmd := ToLowerAscii(Words(command)[0]);
      && (!KnownCommand(cmd) ==> r == Say(os, "Unknown command: " + cmd))
      && (cmd in {"ls", "help"} ==> r.files == os.files && r.order == os.order)
      && (cmd == "touch" && |Words(command)| < 3 ==> r == Say(os, "Usage: touch <filename> <type>"))
      && (cmd == "rm" && |Words(command)| != 2 ==> r == Say(os, "Usage: rm <filename>"))
      && (cmd == "cp" && |Words(command)| != 3 ==> r == Say(os, "Usage: cp <source> <destination>"))
    ensures var words := Words(command); var cmd := ToLowerAscii(words[0]); var args := words[1..];
      && (cmd == "touch" ==> r == Touch(os, args))
      && (cmd == "cat" ==> r == Cat(os, args, grid))
      && (cmd == "ls" ==> r == Ls(os))
      && (cmd == "rm" ==> r == Rm(os, args))
      && (cmd == "cp" ==> r == Cp(os, args))
      && (cmd == "help" ==> r == Help(os))
  {
    var words := Words(command);
    var cmd := ToLowerAscii(words[0]);
    var args := words[1..];
    if cmd == "touch" then Touch(os, args)
    else if cmd == "cat" then Cat(os, args, grid)
    else if cmd == "ls" then Ls(os)
    else if cmd == "rm" then Rm(os, args)
    else if cmd == "cp" then Cp(os, args)
    else if cmd == "help" then Help(os)
    else Say(os, "Unknown command: " + cmd)
  }

  /**
    `handleSubmit`: a blank line is ignored; any other line is echoed after
    `> ` and then executed.
   */
  function Submit(os: Os, input: string, grid: string -> string): (r: Os)
    ensures IsBlank(input) ==> r == os
    ensures !IsBlank(input) ==>
      && |r.output| >= |os.output| + 2
      && r.output[..|os.output|] == os.output
      && r.output[|os.output|] == "> " + input
    ensures !IsBlank(input) ==> r == Execute(Say(os, "> " + input), input, grid)
  {
    if Trim(input) == "" then os
    else
      var echoed := Say(os, "> " + input);
      var r := Execute(echoed, input, grid);
      LogExtends(echoed.output, r.output, os.output, "> " + input);
      r
  }

  /** A log that extends `before + [line]` has `line` right after `before`. */
  lemma LogExtends(echoed: seq<string>, after: seq<string>, before: seq<string>, line: string)
    requires echoed == before + [line]
    requires |after| > |echoed| && after[..|echoed|] == echoed
    ensures |after| >= |before| + 2 && after[..|before|] == before && after[|before|] == line
  {
    assert after[..|before|] == echoed[..|before|];
    assert after[|before|] == echoed[|before|];
  }

  // ---------------------------------------------------------------------
  // The invariant across commands
  // ---------------------------------------------------------------------

  lemma CreateKeeps(os: Os, name: string, t: FileType)
    requires WellKept(os)
    ensures WellKept(CreateFile(os, name, t))
  {
    if name !in os.files {
      AddKeyKeepsOrder(os.order, name);
      AddKeyDistinct(os.order, name);
      var r := CreateFile(os, name, t);
      forall k
        ensures k in r.files <==> k in r.order
      {
        assert k in r.order <==> k in multiset(r.order);
      }
    }
  }

  lemma WriteKeeps(os: Os, name: string, content: string)
    requires WellKept(os)
    ensures WellKept(WriteToFile(os, name, content))
  {
  }

  lemma RemoveKeeps(os: Os, name: string)
    requires WellKept(os)
    ensures WellKept(RemoveFile(os, name))
  {
    if name in os.files {
      RemoveKeyKeepsOrder(os.order, name);
      RemoveKeyDistinct(os.order, name);
    }
  }

  lemma CopyKeeps(os: Os, source: string, dest: string)
    requires WellKept(os)
    ensures WellKept(CopyFile(os, source, dest))
  {
    if source in os.files && dest !in os.files {
      AddKeyKeepsOrder(os.order, dest);
      AddKeyDistinct(os.order, dest);
      var r := CopyFile(os, source, dest);
      forall k
        ensures k in r.files <==> k in r.order
      {
        assert k in r.order <==> k in multiset(r.order);
      }
    }
  }

  /** Adding a log line keeps the invariant. */
  lemma SayKeeps(os: Os, line: string)
    requires WellKept(os)
    ensures WellKept(Say(os, line))
  {
  }

  lemma TouchKeeps(os: Os, args: seq<string>)
    requires WellKept(os)
    ensures WellKept(Touch(os, args))
  {
    if |args| >= 2 && ParseType(args[1]).Some? {
      CreateKeeps(os, args[0], ParseType(args[1]).value);
    }
  }

  lemma CatKeeps(os: Os, args: seq<string>, grid: string -> string)
    requires WellKept(os)
    ensures WellKept(Cat(os, args, grid))
  {
    if |args| > 1 {
      WriteKeeps(os, args[0], Join(args[1..], ' '));
    }
  }

  /** Every command keeps every file under its name, with its size matching its content. */
  lemma ExecuteKeeps(os: Os, command: string, grid: string -> string)
    requires WellKept(os)
    ensures WellKept(Execute(os, command, grid))
  {
    var words := Words(command);
    var cmd := ToLowerAscii(words[0]);
    var args := words[1..];
    var r := Execute(os, command, grid);
    if cmd == "touch" {
      TouchKeeps(os, args);
      assert r == Touch(os, args);
    } else if cmd == "cat" {
      CatKeeps(os, args, grid);
      assert r == Cat(os, args, grid);
    } else if cmd == "rm" && |args| == 1 {
      RemoveKeeps(os, args[0]);
      assert r == RemoveFile(os, args[0]);
    } else if cmd == "cp" && |args| == 2 {
      CopyKeeps(os, args[0], args[1]);
      assert r == CopyFile(os, args[0], args[1]);
    } else {
      assert r.files == os.files && r.order == os.order;
    }
  }

  /** Submitting any line keeps the invariant. */
  lemma SubmitKeeps(os: Os, input: string, grid: string -> string)
    requires WellKept(os)
    ensures WellKept(Submit(os, input, grid))
  {
    if Trim(input) != "" {
      ExecuteKeeps(Say(os, "> " + input), input, grid);
    }
  }

  // ---------------------------------------------------------------------
  // Round trips
  // ---------------------------------------------------------------------

  /** Removing a file just created gives back the file system it was created in. */
  lemma RemoveUndoesCreate(os: Os, name: string, t: FileType)
    requires name !in os.files && name !in os.order
    ensures var r := RemoveFile(CreateFile(os, name, t), name);
      r.files == os.files && r.order == os.order
  {
    RemoveUndoesAddKey(os.order, name);
    assert os.files[name := File(name, t, "", 0)] - {name} == os.files;
  }

  /** Writing text and reading it back shows what was written. */
  lemma DisplayShowsWrite(os: Os, name: string, content: string, grid: string -> string)
    requires name in os.files && os.files[name].ftype == Text && content != ""
    ensures var r := DisplayFile(WriteToFile(os, name, content), name, grid);
      r.output[|r.output| - 1] == content
  {
  }

  /** A copy carries the source's type and content under the new name, and the source stays. */
  lemma CopyMatchesSource(os: Os, source: string, dest: string)
    requires WellKept(os) && source in os.files && dest !in os.files
    ensures var r := CopyFile(os, source, dest);
      && WellKept(r)
      && r.files[dest].ftype == os.files[source].ftype
      && r.files[dest].content == os.files[source].content
      && r.files[source] == os.files[source]
  {
    CopyKeeps(os, source, dest);
  }
}

=== FILE: pathastar.dfy ===
/**
  `astar` and `updateUnvisitedNeighbors` of src/components/ShortestPathVisualizer.tsx.
  Every round stably re-sorts the remaining nodes by `distance`, takes the
  first, skips it if it is a wall, stops if its distance is `Infinity`, and
  otherwise settles it; unless it is the finish node, each unvisited neighbour
  is offered the cost `distance + 1 + manhattan(neighbour, finish)`, kept only
  when strictly lower, together with the settled node as parent.
 */
module PathAStar {
  import opened Basics
  import opened PathGrid
  import opened PathSearch
  import opened PathSort

  /** The cost `updateUnvisitedNeighbors` offers `q` from a parent at distance `du`. */
  function Offer(du: nat, q: Pos, finish: Pos): nat {
    du + 1 + Manhattan(q, finish)
  }

  /**
    Relaxes each node of `nbrs` in turn from the settled node `u` at distance
    `du`. Nodes outside `nbrs` keep their distance and parent; a node in `nbrs`
    ends with the lesser of its old distance and the offer, and `u` becomes its
    parent exactly when the offer was strictly lower.
   */
  function Relax(dist: map<Pos, nat>, prev: map<Pos, Pos>, u: Pos, du: nat, nbrs: seq<Pos>, finish: Pos)
    : (r: (map<Pos, nat>, map<Pos, Pos>))
    ensures forall q :: q !in nbrs ==> DistOf(r.0, q) == DistOf(dist, q)
    ensures forall q :: q !in nbrs ==> (q in r.1 <==> q in prev) && (q in prev ==> r.1[q] == prev[q])
    ensures forall q :: q in nbrs ==> q in r.0 && r.0[q] <= Offer(du, q, finish)
    ensures forall q :: q in nbrs && q in dist ==> r.0[q] <= dist[q]
    ensures forall q :: q in nbrs ==>
      if q !in dist || Offer(du, q, finish) < dist[q] then r.0[q] == Offer(du, q, finish) && q in r.1 && r.1[q] == u
      else r.0[q] == dist[q] && (q in r.1 <==> q in prev) && (q in prev ==> r.1[q] == prev[q])
    decreases |nbrs|
  {
    if |nbrs| == 0 then (dist, prev)
    else
      var q := nbrs[0];
      var t := Offer(du, q, finish);
      assert forall x :: x in nbrs <==> x == q || x in nbrs[1..];
      if q !in dist || t < dist[q] then Relax(dist[q := t], prev[q := u], u, du, nbrs[1..], finish)
      else Relax(dist, prev, u, du, nbrs[1..], finish)
  }

  /** The state of an `astar` run between rounds: the nodes not yet taken out, and the run so far. */
  datatype Round = Round(unvisited: seq<Pos>, order: seq<Pos>, st: RunState)

  /** Every open node is still waiting or settled, and nothing waits twice or after settling. */
  ghost predicate Partition(g: Grid, r: Round) {
    && Once(r.unvisited)
    && (forall q :: q in r.unvisited ==> InBounds(g, q) && q !in r.order)
    && (forall p :: InBounds(g, p) && !IsWall(g, p) ==> p in r.unvisited || p in r.order)
  }

  /**
    The distance table: the start at 0, every other finite distance paid for
    along its parent link, every settled node finite.
   */
  ghost predicate DistTable(start: Pos, finish: Pos, r: Round) {
    var dist := r.st.dist;
    var prev := r.st.prev;
    && start in dist && dist[start] == 0
    && (forall q :: q in dist && q != start ==> q in prev)
    && (forall q :: q in r.order ==> q in dist)
    && (forall q :: q in prev ==> q in dist && prev[q] in dist && dist[q] == Offer(dist[prev[q]], q, finish))
  }

  /** Settled distances never decrease along the visited order. */
  ghost predicate SettledMonotone(order: seq<Pos>, dist: map<Pos, nat>) {
    forall i, j :: 0 <= i < j < |order| ==> DistLe(DistOf(dist, order[i]), DistOf(dist, order[j]))
  }

  /** No waiting node is cheaper than the last settled one. */
  ghost predicate AheadOfSettled(r: Round) {
    |r.order| > 0 ==>
      forall q :: q in r.unvisited ==> DistLe(DistOf(r.st.dist, r.order[|r.order| - 1]), DistOf(r.st.dist, q))
  }

  /** Each open neighbour of a settled node is settled or has a finite distance. */
  ghost predicate Offered(g: Grid, r: Round) {
    forall v, n :: v in r.order && InBounds(g, n) && Adjacent(v, n) && !IsWall(g, n) && n !in r.order ==> n in r.st.dist
  }

  /** The loop invariant of `astar`. */
  ghost predicate AStarInv(g: Grid, start: Pos, finish: Pos, r: Round) {
    && WellFormed(g) && InBounds(g, start)
    && Partition(g, r)
    && SettledOrder(g, start, finish, r.order)
    && finish !in r.order
    && (forall q :: q in r.st.visited <==> q in r.order)
    && ParentTree(g, start, r.order, r.st.prev)
    && DistTable(start, finish, r)
    && SettledMonotone(r.order, r.st.dist)
    && AheadOfSettled(r)
    && Offered(g, r)
    && (|r.order| == 0 ==> r.st.dist == map[start := 0] && (!IsWall(g, start) ==> start in r.unvisited))
  }

  /** No node occurs twice in `s`, stated through its multiset so that reordering keeps it. */
  ghost predicate Once(s: seq<Pos>) {
    forall q :: multiset(s)[q] <= 1
  }

  lemma {:induction false} DistinctOnce(s: seq<Pos>)
    requires Distinct(s)
    ensures Once(s)
    decreases |s|
  {
    if |s| > 0 {
      assert s == [s[0]] + s[1..];
      assert Distinct(s[1..]);
      DistinctOnce(s[1..]);
      assert s[0] !in s[1..];
      assert multiset(s[1..])[s[0]] == 0;
    }
  }

  /** What `astar` leaves behind, shared with `bfs` and `dfs` where it overlaps. */
  ghost predicate AStarResult(g: Grid, start: Pos, finish: Pos, order: seq<Pos>, st: RunState) {
    && InBounds(g, start)
    && SettledOrder(g, start, finish, order)
    && (|order| > 0 <==> !IsWall(g, start))
    && (forall q :: q in st.visited <==> q in order)
    && ParentTree(g, start, order, st.prev)
    && start in st.dist && st.dist[start] == 0
    && (forall q :: q in st.prev ==> q in st.dist && st.prev[q] in st.dist && st.dist[q] == Offer(st.dist[st.prev[q]], q, finish))
    && SettledMonotone(order, st.dist)
    && (finish !in order ==> ClosedUnderMoves(g, order))
  }

  /**
    `astar`: on a board whose run state is fresh, settles nodes cheapest first
    until the finish node is settled or the cheapest remaining node is
    unreached. The visited order opens with the start node, repeats nothing,
    holds no wall and ends at the finish node if it holds it; settled distances
    never decrease along it; every parent link is paid for by the child's
    distance; and when the finish node is not reached, every open neighbour of
    a settled node was settled.
   */
  method AStar(g: Grid, start: Pos, finish: Pos) returns (order: seq<Pos>, st: RunState)
    requires WellFormed(g) && InBounds(g, start) && InBounds(g, finish)
    ensures SettledOrder(g, start, finish, order)
    ensures |order| > 0 <==> !IsWall(g, start)
    ensures forall q :: q in st.visited <==> q in order
    ensures ParentTree(g, start, order, st.prev)
    ensures start in st.dist && st.dist[start] == 0
    ensures forall q :: q in st.prev ==>
      q in st.dist && st.prev[q] in st.dist && st.dist[q] == Offer(st.dist[st.prev[q]], q, finish)
    ensures SettledMonotone(order, st.dist)
    ensures finish !in order ==> ClosedUnderMoves(g, order)
  {
    var r := Round(AllNodes(g), [], RunState({}, map[start := 0], map[]));
    AStarInit(g, start, finish);
    while |r.unvisited| > 0
      invariant AStarInv(g, start, finish, r)
      decreases |r.unvisited|
    {
      var sorted := SortByDistance(r.unvisited, r.st.dist);
      var closest := sorted[0];
      ResortKeeps(g, start, finish, r);
      if IsWall(g, closest) {
        SkipWallKeeps(g, start, finish, r.(unvisited := sorted));
        r := r.(unvisited := sorted[1..]);
      } else if closest !in r.st.dist {
        StopAtInfinity(g, start, finish, r.(unvisited := sorted));
        return r.order, r.st;
      } else if closest == finish {
        SettleFinish(g, start, finish, r.(unvisited := sorted));
        return r.order + [closest], r.st.(visited := r.st.visited + {closest});
      } else {
        var visited := r.st.visited + {closest};
        var nbrs := UnvisitedNeighbors(g, closest, visited);
        var settled := Round(sorted[1..], r.order + [closest], r.st.(visited := visited));
        SettleHead(g, start, finish, r.(unvisited := sorted));
        RelaxRestores(g, start, finish, settled, closest, nbrs);
        var relaxed := Relax(r.st.dist, r.st.prev, closest, r.st.dist[closest], nbrs, finish);
        r := Round(sorted[1..], r.order + [closest], RunState(visited, relaxed.0, relaxed.1));
      }
    }
    Exhausted(g, start, finish, r);
    return r.order, r.st;
  }

  /** Every node of `s` ranks no earlier than its head. */
  ghost predicate HeadLeast(s: seq<Pos>, dist: map<Pos, nat>) {
    |s| > 0 && forall q :: q in s ==> DistLe(DistOf(dist, s[0]), DistOf(dist, q))
  }

  /** The first round starts from all nodes, nothing settled and only the start at distance 0. */
  lemma AStarInit(g: Grid, start: Pos, finish: Pos)
    requires WellFormed(g) && InBounds(g, start)
    ensures AStarInv(g, start, finish, Round(AllNodes(g), [], RunState({}, map[start := 0], map[])))
  {
    AllNodesSpec(g);
    DistinctOnce(AllNodes(g));
  }

  /** Re-sorting the waiting nodes keeps the invariant and brings a cheapest one to the front. */
  lemma ResortKeeps(g: Grid, start: Pos, finish: Pos, r: Round)
    requires AStarInv(g, start, finish, r) && |r.unvisited| > 0
    ensures var sorted := SortByDistance(r.unvisited, r.st.dist);
      && AStarInv(g, start, finish, r.(unvisited := sorted))
      && HeadLeast(sorted, r.st.dist)
  {
    var sorted := SortByDistance(r.unvisited, r.st.dist);
    SortHeadLeast(r.unvisited, r.st.dist);
    forall q
      ensures q in sorted <==> q in r.unvisited
    {
      assert q in sorted <==> q in multiset(sorted);
      assert q in r.unvisited <==> q in multiset(r.unvisited);
    }
  }

  /** Taking the head off leaves the rest, with the head gone for good. */
  lemma TakeHead(s: seq<Pos>)
    requires Once(s) && |s| > 0
    ensures Once(s[1..])
    ensures s[0] !in s[1..]
    ensures forall q :: q in s <==> q == s[0] || q in s[1..]
  {
    assert s == [s[0]] + s[1..];
    assert multiset(s) == multiset{s[0]} + multiset(s[1..]);
    assert multiset(s)[s[0]] <= 1;
    assert multiset(s[1..])[s[0]] == 0;
    forall q
      ensures multiset(s[1..])[q] <= 1
    {
      assert multiset(s)[q] <= 1;
    }
  }

  /** A wall taken off the front is dropped and nothing else changes. */
  lemma SkipWallKeeps(g: Grid, start: Pos, finish: Pos, r: Round)
    requires AStarInv(g, start, finish, r) && |r.unvisited| > 0
    requires IsWall(g, r.unvisited[0])
    ensures AStarInv(g, start, finish, r.(unvisited := r.unvisited[1..]))
  {
    TakeHead(r.unvisited);
  }

  /**
    When the cheapest waiting node is unreached, every waiting node is, so no
    open neighbour of a settled node is still waiting.
   */
  lemma StopAtInfinity(g: Grid, start: Pos, finish: Pos, r: Round)
    requires AStarInv(g, start, finish, r) && HeadLeast(r.unvisited, r.st.dist)
    requires r.unvisited[0] !in r.st.dist
    ensures AStarResult(g, start, finish, r.order, r.st)
  {
    if |r.order| == 0 && !IsWall(g, start) {
      assert DistLe(DistOf(r.st.dist, r.unvisited[0]), DistOf(r.st.dist, start));
    }
  }

  /** With nothing left waiting, every open neighbour of a settled node was settled. */
  lemma Exhausted(g: Grid, start: Pos, finish: Pos, r: Round)
    requires AStarInv(g, start, finish, r) && |r.unvisited| == 0
    ensures AStarResult(g, start, finish, r.order, r.st)
  {
  }

  /** Settling the finish node ends the run with it last. */
  lemma SettleFinish(g: Grid, start: Pos, finish: Pos, r: Round)
    requires AStarInv(g, start, finish, r) && HeadLeast(r.unvisited, r.st.dist)
    requires r.unvisited[0] == finish && !IsWall(g, finish) && finish in r.st.dist
    ensures AStarResult(g, start, finish, r.order + [finish], r.st.(visited := r.st.visited + {finish}))
  {
    var order' := r.order + [finish];
    var dist := r.st.dist;
    assert |r.order| == 0 ==> finish == start;
    SettleKeepsOrder(g, start, finish, r.order, finish);
    SettleKeepsTree(g, start, r.order, r.st.prev, finish);
    SettleMonotone(r.order, dist, finish);
  }

  /** Appending a node no cheaper than the last settled one keeps distances non-decreasing. */
  lemma SettleMonotone(order: seq<Pos>, dist: map<Pos, nat>, cur: Pos)
    requires SettledMonotone(order, dist)
    requires forall q :: q in order ==> q in dist
    requires cur in dist
    requires |order| > 0 ==> DistLe(DistOf(dist, order[|order| - 1]), DistOf(dist, cur))
    ensures SettledMonotone(order + [cur], dist)
  {
    var order' := order + [cur];
    forall i, j | 0 <= i < j < |order'|
      ensures DistLe(DistOf(dist, order'[i]), DistOf(dist, order'[j]))
    {
      if j == |order| {
        assert order'[i] == order[i] && order[i] in dist;
        if i < |order| - 1 {
          assert DistLe(DistOf(dist, order[i]), DistOf(dist, order[|order| - 1]));
        }
      } else {
        assert order'[i] == order[i] && order'[j] == order[j];
      }
    }
  }

  /**
    Right after the head `u` was settled and before its neighbours are relaxed:
    everything of the loop invariant except that the open neighbours of `u`
    itself may still lack a distance.
   */
  ghost predicate JustSettled(g: Grid, start: Pos, finish: Pos, r: Round, u: Pos) {
    && WellFormed(g) && InBounds(g, start)
    && |r.order| > 0 && r.order[|r.order| - 1] == u
    && Partition(g, r)
    && SettledOrder(g, start, finish, r.order)
    && finish !in r.order
    && (forall q :: q in r.st.visited <==> q in r.order)
    && ParentTree(g, start, r.order, r.st.prev)
    && DistTable(start, finish, r)
    && SettledMonotone(r.order, r.st.dist)
    && AheadOfSettled(r)
    && (forall v, n :: v in r.order && v != u && InBounds(g, n) && Adjacent(v, n) && !IsWall(g, n) && n !in r.order
          ==> n in r.st.dist)
  }

  /** Settling the cheapest waiting node, when it is open, reached and not the finish. */
  lemma SettleHead(g: Grid, start: Pos, finish: Pos, r: Round)
    requires AStarInv(g, start, finish, r) && HeadLeast(r.unvisited, r.st.dist)
    requires !IsWall(g, r.unvisited[0]) && r.unvisited[0] in r.st.dist && r.unvisited[0] != finish
    ensures var u := r.unvisited[0];
      JustSettled(g, start, finish, Round(r.unvisited[1..], r.order + [u], r.st.(visited := r.st.visited + {u})), u)
  {
    var u := r.unvisited[0];
    TakeHead(r.unvisited);
    assert |r.order| == 0 ==> u == start;
    SettleKeepsOrder(g, start, finish, r.order, u);
    SettleKeepsTree(g, start, r.order, r.st.prev, u);
    SettleMonotone(r.order, r.st.dist, u);
  }

  /** The round after relaxing the neighbours `nbrs` of the just-settled `u`. */
  function Relaxed(r: Round, u: Pos, nbrs: seq<Pos>, finish: Pos): Round
    requires u in r.st.dist
  {
    var rel := Relax(r.st.dist, r.st.prev, u, r.st.dist[u], nbrs, finish);
    Round(r.unvisited, r.order, RunState(r.st.visited, rel.0, rel.1))
  }

  /** Relaxing the unvisited neighbours of the just-settled node restores the loop invariant. */
  lemma RelaxRestores(g: Grid, start: Pos, finish: Pos, r: Round, u: Pos, nbrs: seq<Pos>)
    requires JustSettled(g, start, finish, r, u)
    requires InBounds(g, u) && nbrs == UnvisitedNeighbors(g, u, r.st.visited)
    ensures u in r.st.dist
    ensures AStarInv(g, start, finish, Relaxed(r, u, nbrs, finish))
  {
    var dist, prev := r.st.dist, r.st.prev;
    var rel := Relax(dist, prev, u, dist[u], nbrs, finish);
    assert r.order[0] == start;
    assert forall q :: q in nbrs ==> q !in r.order && q != start && InBounds(g, q) && Adjacent(u, q);
    RelaxFrame(dist, prev, u, nbrs, finish);
    RelaxKeepsTree(g, start, r.order, prev, u, nbrs, rel.1);
    RelaxKeepsTable(start, finish, r.order, dist, prev, u, nbrs, rel.0, rel.1);
    RelaxKeepsMonotone(r.order, dist, rel.0);
    RelaxKeepsAhead(r, u, nbrs, finish);
    RelaxKeepsOffered(g, r, u, nbrs, rel.0);
    var r' := Relaxed(r, u, nbrs, finish);
    assert r'.unvisited == r.unvisited && r'.order == r.order && r'.st.visited == r.st.visited;
    assert Partition(g, r');
    assert ParentTree(g, start, r'.order, r'.st.prev);
    assert DistTable(start, finish, r');
  }

  /**
    `updateUnvisitedNeighbors` never touches a visited node: relaxing from `u`
    leaves the distance and the parent of every visited node as they were.
   */
  lemma RelaxSparesVisited(g: Grid, dist: map<Pos, nat>, prev: map<Pos, Pos>, u: Pos, visited: set<Pos>, finish: Pos)
    requires WellFormed(g) && InBounds(g, u) && u in dist
    ensures var rel := Relax(dist, prev, u, dist[u], UnvisitedNeighbors(g, u, visited), finish);
      forall q :: q in visited ==>
        && DistOf(rel.0, q) == DistOf(dist, q)
        && (q in rel.1 <==> q in prev)
        && (q in prev ==> rel.1[q] == prev[q])
  {
  }

  /** Outside `nbrs` the relaxation changes no distance and no parent; inside, it only adds. */
  lemma RelaxFrame(dist: map<Pos, nat>, prev: map<Pos, Pos>, u: Pos, nbrs: seq<Pos>, finish: Pos)
    requires u in dist
    ensures var rel := Relax(dist, prev, u, dist[u], nbrs, finish);
      && (forall q :: q !in nbrs ==> (q in rel.0 <==> q in dist) && (q in dist ==> rel.0[q] == dist[q]))
      && (forall q :: q in dist ==> q in rel.0)
      && (forall q :: q in nbrs ==> q in rel.0 && (rel.0[q] > dist[u] || (q in dist && rel.0[q] == dist[q])))
      && (forall q :: q in nbrs && q in dist ==> rel.0[q] <= dist[q])
      && (forall q :: q in prev ==> q in rel.1)
      && (forall q :: q in rel.1 ==> (q in prev && rel.1[q] == prev[q]) || (q in nbrs && rel.1[q] == u))
  {
    var rel := Relax(dist, prev, u, dist[u], nbrs, finish);
    forall q | q !in nbrs
      ensures (q in rel.0 <==> q in dist) && (q in dist ==> rel.0[q] == dist[q])
    {
      assert DistOf(rel.0, q) == DistOf(dist, q);
    }
  }

  /** Settled nodes keep their distances, so the settled order stays non-decreasing. */
  lemma RelaxKeepsMonotone(order: seq<Pos>, dist: map<Pos, nat>, dist': map<Pos, nat>)
    requires SettledMonotone(order, dist)
    requires forall q :: q in order ==> q in dist && q in dist' && dist'[q] == dist[q]
    ensures SettledMonotone(order, dist')
  {
    forall i, j | 0 <= i < j < |order|
      ensures DistLe(DistOf(dist', order[i]), DistOf(dist', order[j]))
    {
      assert DistOf(dist', order[i]) == DistOf(dist, order[i]);
      assert DistOf(dist', order[j]) == DistOf(dist, order[j]);
    }
  }

  /** Waiting nodes stay no cheaper than the just-settled one: every offer exceeds its distance. */
  lemma RelaxKeepsAhead(r: Round, u: Pos, nbrs: seq<Pos>, finish: Pos)
    requires |r.order| > 0 && r.order[|r.order| - 1] == u && u in r.st.dist && u !in nbrs
    requires AheadOfSettled(r)
    ensures AheadOfSettled(Relaxed(r, u, nbrs, finish))
  {
    var dist := r.st.dist;
    var dist' := Relaxed(r, u, nbrs, finish).st.dist;
    RelaxFrame(dist, r.st.prev, u, nbrs, finish);
    forall q | q in r.unvisited
      ensures DistLe(DistOf(dist', u), DistOf(dist', q))
    {
      assert DistLe(DistOf(dist, u), DistOf(dist, q));
    }
  }

  /** After relaxing, each open neighbour of a settled node outside the order has a distance. */
  lemma RelaxKeepsOffered(g: Grid, r: Round, u: Pos, nbrs: seq<Pos>, dist': map<Pos, nat>)
    requires WellFormed(g) && InBounds(g, u) && u in r.order
    requires forall q :: q in r.st.visited <==> q in r.order
    requires forall v, n :: v in r.order && v != u && InBounds(g, n) && Adjacent(v, n) && !IsWall(g, n) && n !in r.order
               ==> n in r.st.dist
    requires nbrs == UnvisitedNeighbors(g, u, r.st.visited)
    requires forall q :: q in r.st.dist ==> q in dist'
    requires forall q :: q in nbrs ==> q in dist'
    ensures forall v, n :: v in r.order && InBounds(g, n) && Adjacent(v, n) && !IsWall(g, n) && n !in r.order ==> n in dist'
  {
    forall v, n | v in r.order && InBounds(g, n) && Adjacent(v, n) && !IsWall(g, n) && n !in r.order
      ensures n in dist'
    {
      if v == u {
        assert n in nbrs;
      }
    }
  }

  /**
    A relaxation that only gives unsettled neighbours of the settled `u` the
    parent `u` keeps the parent tree.
   */
  lemma RelaxKeepsTree(g: Grid, start: Pos, order: seq<Pos>, prev: map<Pos, Pos>, u: Pos, nbrs: seq<Pos>,
                       prev': map<Pos, Pos>)
    requires ParentTree(g, start, order, prev) && u in order
    requires forall q :: q in nbrs ==> q !in order && q != start && InBounds(g, q) && Adjacent(u, q)
    requires forall q :: q in prev ==> q in prev'
    requires forall q :: q in prev' ==> (q in prev && prev'[q] == prev[q]) || (q in nbrs && prev'[q] == u)
    ensures ParentTree(g, start, order, prev')
  {
    forall i | 0 <= i < |order|
      ensures ParentBefore(prev', order, i)
    {
      assert ParentBefore(prev, order, i);
    }
    forall q | q in prev'
      ensures Adjacent(q, prev'[q])
    {
      if q !in prev || prev'[q] != prev[q] {
        ManhattanSymmetric(q, u);
      }
    }
  }

  /** Relaxing from the settled `u` keeps every distance paid for along its parent link. */
  lemma RelaxKeepsTable(start: Pos, finish: Pos, order: seq<Pos>, dist: map<Pos, nat>, prev: map<Pos, Pos>,
                        u: Pos, nbrs: seq<Pos>, dist': map<Pos, nat>, prev': map<Pos, Pos>)
    requires DistTable(start, finish, Round([], order, RunState({}, dist, prev)))
    requires forall q :: q in prev ==> prev[q] in order
    requires u in order && start !in nbrs
    requires forall q :: q in nbrs ==> q !in order
    requires (dist', prev') == Relax(dist, prev, u, dist[u], nbrs, finish)
    ensures DistTable(start, finish, Round([], order, RunState({}, dist', prev')))
    ensures forall q :: q in order ==> q in dist' && dist'[q] == dist[q]
  {
    var du := dist[u];
    RelaxFrame(dist, prev, u, nbrs, finish);
    forall q | q in dist' && q != start
      ensures q in prev'
    {
      if q in nbrs {
        if !(q !in dist || Offer(du, q, finish) < dist[q]) {
          assert q in prev;
        }
      } else {
        assert q in dist;
      }
    }
    forall q | q in prev'
      ensures q in dist' && prev'[q] in dist' && dist'[q] == Offer(dist'[prev'[q]], q, finish)
    {
      if q in nbrs && (q !in dist || Offer(du, q, finish) < dist[q]) {
        assert prev'[q] == u;
      } else {
        assert q in prev && prev'[q] == prev[q];
        assert prev[q] in order;
        assert dist'[q] == dist[q];
      }
    }
  }
}

=== FILE: pathgrid.dfy ===
/**
  The path-finding visualizer's grid: nodes, the initial 20 x 50 board, wall
  toggling, orthogonal neighbour lookup, Manhattan distance and the row-major
  list of all nodes (src/components/ShortestPathVisualizer.tsx).
 */
module PathGrid {
  import opened Basics

  /** A node's identity: its row and column. */
  datatype Pos = Pos(row: int, col: int)

  /** A node's `distance`: a finite step count or JavaScript's `Infinity`. */
  datatype Dist = Inf | Fin(n: nat)

  datatype Node = Node(
    row: int,
    col: int,
    isStart: bool,
    isFinish: bool,
    distance: Dist,
    isVisited: bool,
    isWall: bool,
    previousNode: Option<Pos>,
    isPath: bool)

  /** The board, row by row. */
  type Grid = seq<seq<Node>>

  const Rows: nat := 20
  const Cols: nat := 50
  const StartPos: Pos := Pos(10, 15)
  const FinishPos: Pos := Pos(10, 35)

  /**
    `createNode(col, row)`: a node in its pre-search state. It records its own
    coordinates, is open, and is marked start or finish exactly at those cells.
   */
  function CreateNode(col: int, row: int): (n: Node)
    ensures n.row == row && n.col == col && !n.isWall
    ensures n.distance == Inf && !n.isVisited && n.previousNode == None && !n.isPath
    ensures n.isStart <==> row == 10 && col == 15
    ensures n.isFinish <==> row == 10 && col == 35
  {
    Node(row, col, Pos(row, col) == StartPos, Pos(row, col) == FinishPos,
         Inf, false, false, None, false)
  }

  predicate InBounds(g: Grid, p: Pos) {
    0 <= p.row < |g| && 0 <= p.col < |g[p.row]|
  }

  function At(g: Grid, p: Pos): Node
    requires InBounds(g, p)
  {
    g[p.row][p.col]
  }

  predicate IsWall(g: Grid, p: Pos)
    requires InBounds(g, p)
  {
    At(g, p).isWall
  }

  /** Every node sits at the coordinates it records. */
  ghost predicate Coordinated(g: Grid) {
    forall r, c :: 0 <= r < |g| && 0 <= c < |g[r]| ==> g[r][c].row == r && g[r][c].col == c
  }

  /** A non-empty rectangular board whose nodes know their own coordinates. */
  ghost predicate WellFormed(g: Grid) {
    && |g| > 0
    && |g[0]| > 0
    && (forall r :: 0 <= r < |g| ==> |g[r]| == |g[0]|)
    && Coordinated(g)
  }

  /** No search has touched the board: every node is in its `createNode` state. */
  ghost predicate Fresh(g: Grid) {
    forall r, c :: 0 <= r < |g| && 0 <= c < |g[r]| ==>
      && g[r][c].distance == Inf
      && !g[r][c].isVisited
      && g[r][c].previousNode == None
      && !g[r][c].isPath
  }

  /**
    What the editor keeps true of the board: 20 x 50, fresh, exactly one start at
    (10,15) and one finish at (10,35), neither of which is a wall.
   */
  ghost predicate Board(g: Grid) {
    && WellFormed(g)
    && |g| == Rows
    && |g[0]| == Cols
    && Fresh(g)
    && (forall r, c :: 0 <= r < |g| && 0 <= c < |g[r]| ==>
          && (g[r][c].isStart <==> Pos(r, c) == StartPos)
          && (g[r][c].isFinish <==> Pos(r, c) == FinishPos))
    && !IsWall(g, StartPos)
    && !IsWall(g, FinishPos)
  }

  /** `getInitialGrid`: a wall-free board in which no search has run. */
  function InitialGrid(): (g: Grid)
    ensures Board(g)
    ensures forall r, c :: 0 <= r < |g| && 0 <= c < |g[r]| ==> !g[r][c].isWall
  {
    seq(Rows, r requires 0 <= r < Rows => seq(Cols, c requires 0 <= c < Cols => CreateNode(c, r)))
  }

  /**
    `getNewGridWithWallToggled`: the start and finish nodes are never toggled;
    any other node has only its `isWall` flag flipped.
   */
  function ToggleWall(g: Grid, row: int, col: int): (g': Grid)
    requires InBounds(g, Pos(row, col))
    ensures |g'| == |g| && forall r :: 0 <= r < |g| ==> |g'[r]| == |g[r]|
    ensures forall r, c :: 0 <= r < |g| && 0 <= c < |g[r]| && (r, c) != (row, col) ==> g'[r][c] == g[r][c]
    ensures g[row][col].isStart || g[row][col].isFinish ==> g' == g
    ensures !g[row][col].isStart && !g[row][col].isFinish ==>
      && g'[row][col].isWall == !g[row][col].isWall
      && g'[row][col].(isWall := g[row][col].isWall) == g[row][col]
  {
    var node := g[row][col];
    if !node.isStart && !node.isFinish then
      g[row := g[row][col := node.(isWall := !node.isWall)]]
    else
      g
  }

  /** Toggling the same node twice gives back the board. */
  lemma ToggleTwice(g: Grid, row: int, col: int)
    requires InBounds(g, Pos(row, col))
    ensures ToggleWall(ToggleWall(g, row, col), row, col) == g
  {
    var g1 := ToggleWall(g, row, col);
    var g2 := ToggleWall(g1, row, col);
    assert forall r :: 0 <= r < |g| ==> g2[r] == g[r];
  }

  /** The editor's wall toggles keep every board invariant. */
  lemma ToggleKeepsBoard(g: Grid, row: int, col: int)
    requires Board(g) && InBounds(g, Pos(row, col))
    ensures Board(ToggleWall(g, row, col))
  {
  }

  function Abs(x: int): nat {
    if x < 0 then -x else x
  }

  /** `manhattanDistance`: zero exactly on the node itself. */
  function Manhattan(a: Pos, b: Pos): (d: nat)
    ensures d == 0 <==> a == b
  {
    Abs(a.row - b.row) + Abs(a.col - b.col)
  }

  lemma ManhattanSymmetric(a: Pos, b: Pos)
    ensures Manhattan(a, b) == Manhattan(b, a)
  {
  }

  /** One orthogonal step apart. */
  predicate Adjacent(a: Pos, b: Pos) {
    Manhattan(a, b) == 1
  }

  /** Position of `q` in the lookup order up, down, left, right (4 if none). */
  function DirRank(p: Pos, q: Pos): nat {
    if q == Pos(p.row - 1, p.col) then 0
    else if q == Pos(p.row + 1, p.col) then 1
    else if q == Pos(p.row, p.col - 1) then 2
    else if q == Pos(p.row, p.col + 1) then 3
    else 4
  }

  /** The in-bounds orthogonal neighbours, up, down, left, right, before filtering. */
  function Neighbors(g: Grid, p: Pos): seq<Pos>
    requires |g| > 0
  {
    (if p.row > 0 then [Pos(p.row - 1, p.col)] else [])
    + (if p.row < |g| - 1 then [Pos(p.row + 1, p.col)] else [])
    + (if p.col > 0 then [Pos(p.row, p.col - 1)] else [])
    + (if p.col < |g[0]| - 1 then [Pos(p.row, p.col + 1)] else [])
  }

  /** Keeps, in order, the entries not in `visited`. */
  function Unvisited(s: seq<Pos>, visited: set<Pos>): (r: seq<Pos>)
    ensures forall q :: q in r <==> q in s && q !in visited
  {
    if |s| == 0 then []
    else if s[0] in visited then Unvisited(s[1..], visited)
    else [s[0]] + Unvisited(s[1..], visited)
  }

  lemma {:induction false} UnvisitedAppend(a: seq<Pos>, b: seq<Pos>, visited: set<Pos>)
    ensures Unvisited(a + b, visited) == Unvisited(a, visited) + Unvisited(b, visited)
  {
    if |a| > 0 {
      assert (a + b)[1..] == a[1..] + b;
      UnvisitedAppend(a[1..], b, visited);
    } else {
      assert a + b == b;
    }
  }

  /** Listed strictly in the order up, down, left, right as seen from `p`. */
  ghost predicate LookupOrdered(p: Pos, s: seq<Pos>) {
    forall i, j :: 0 <= i < j < |s| ==> DirRank(p, s[i]) < DirRank(p, s[j])
  }

  /**
    `getUnvisitedNeighbors`: exactly the in-bounds, orthogonally adjacent nodes
    outside `visited`, at most four, listed in the order up, down, left, right.
    Walls are not filtered out.
   */
  function UnvisitedNeighbors(g: Grid, p: Pos, visited: set<Pos>): (r: seq<Pos>)
    requires WellFormed(g) && InBounds(g, p)
    ensures |r| <= 4
    ensures forall i :: 0 <= i < |r| ==> InBounds(g, r[i]) && Adjacent(p, r[i]) && r[i] !in visited
    ensures forall q :: InBounds(g, q) && Adjacent(p, q) && q !in visited ==> q in r
    ensures LookupOrdered(p, r)
  {
    NeighborPieces(g, p, visited);
    Unvisited(Neighbors(g, p), visited)
  }

  /** A candidate neighbour, kept when its bounds test passes and it is unvisited. */
  function Keep(inside: bool, q: Pos, visited: set<Pos>): (r: seq<Pos>)
    ensures |r| <= 1
    ensures forall x :: x in r <==> inside && x == q && q !in visited
  {
    if inside && q !in visited then [q] else []
  }

  lemma FilterOne(inside: bool, q: Pos, visited: set<Pos>)
    ensures Unvisited(if inside then [q] else [], visited) == Keep(inside, q, visited)
  {
    if inside {
      assert [q][1..] == [];
    }
  }

  lemma {:induction false} OrderedConcat(p: Pos, a: seq<Pos>, b: seq<Pos>)
    requires LookupOrdered(p, a) && LookupOrdered(p, b)
    requires forall x, y :: x in a && y in b ==> DirRank(p, x) < DirRank(p, y)
    ensures LookupOrdered(p, a + b)
  {
    var r := a + b;
    forall i, j | 0 <= i < j < |r|
      ensures DirRank(p, r[i]) < DirRank(p, r[j])
    {
      if j < |a| {
        assert r[i] == a[i] && r[j] == a[j];
      } else if i < |a| {
        assert r[i] == a[i] && r[j] == b[j - |a|];
        assert r[i] in a && r[j] in b;
      } else {
        assert r[i] == b[i - |a|] && r[j] == b[j - |a|];
      }
    }
  }

  /** The filtered lookup is the four candidates, each kept on its own, in order. */
  lemma FilterNeighbors(g: Grid, p: Pos, visited: set<Pos>)
    requires |g| > 0
    ensures Unvisited(Neighbors(g, p), visited) ==
      Keep(p.row > 0, Pos(p.row - 1, p.col), visited)
      + Keep(p.row < |g| - 1, Pos(p.row + 1, p.col), visited)
      + Keep(p.col > 0, Pos(p.row, p.col - 1), visited)
      + Keep(p.col < |g[0]| - 1, Pos(p.row, p.col + 1), visited)
  {
    var u := Pos(p.row - 1, p.col);
    var d := Pos(p.row + 1, p.col);
    var l := Pos(p.row, p.col - 1);
    var rt := Pos(p.row, p.col + 1);
    var cu, cd, cl, cr := p.row > 0, p.row < |g| - 1, p.col > 0, p.col < |g[0]| - 1;
    var up := if cu then [u] else [];
    var down := if cd then [d] else [];
    var left := if cl then [l] else [];
    var right := if cr then [rt] else [];
    assert Neighbors(g, p) == up + down + left + right;
    UnvisitedAppend(up + down + left, right, visited);
    UnvisitedAppend(up + down, left, visited);
    UnvisitedAppend(up, down, visited);
    FilterOne(cu, u, visited);
    FilterOne(cd, d, visited);
    FilterOne(cl, l, visited);
    FilterOne(cr, rt, visited);
  }

  lemma NeighborPieces(g: Grid, p: Pos, visited: set<Pos>)
    requires WellFormed(g) && InBounds(g, p)
    ensures var r := Unvisited(Neighbors(g, p), visited);
      && |r| <= 4
      && (forall i :: 0 <= i < |r| ==> InBounds(g, r[i]) && Adjacent(p, r[i]))
      && (forall q :: InBounds(g, q) && Adjacent(p, q) && q !in visited ==> q in r)
      && LookupOrdered(p, r)
  {
    FilterNeighbors(g, p, visited);
    var ku := Keep(p.row > 0, Pos(p.row - 1, p.col), visited);
    var kd := Keep(p.row < |g| - 1, Pos(p.row + 1, p.col), visited);
    var kl := Keep(p.col > 0, Pos(p.row, p.col - 1), visited);
    var kr := Keep(p.col < |g[0]| - 1, Pos(p.row, p.col + 1), visited);
    PiecesOrdered(p, ku, kd, kl, kr);
    PiecesInside(g, p, visited);
    forall q | InBounds(g, q) && Adjacent(p, q) && q !in visited
      ensures q in ku + kd + kl + kr
    {
      AdjacentCases(p, q);
    }
  }

  lemma PiecesOrdered(p: Pos, ku: seq<Pos>, kd: seq<Pos>, kl: seq<Pos>, kr: seq<Pos>)
    requires |ku| <= 1 && |kd| <= 1 && |kl| <= 1 && |kr| <= 1
    requires forall x :: x in ku ==> x == Pos(p.row - 1, p.col)
    requires forall x :: x in kd ==> x == Pos(p.row + 1, p.col)
    requires forall x :: x in kl ==> x == Pos(p.row, p.col - 1)
    requires forall x :: x in kr ==> x == Pos(p.row, p.col + 1)
    ensures LookupOrdered(p, ku + kd + kl + kr)
  {
    OrderedConcat(p, ku, kd);
    OrderedConcat(p, ku + kd, kl);
    OrderedConcat(p, ku + kd + kl, kr);
  }

  lemma PiecesInside(g: Grid, p: Pos, visited: set<Pos>)
    requires WellFormed(g) && InBounds(g, p)
    ensures var r := Unvisited(Neighbors(g, p), visited);
      forall i :: 0 <= i < |r| ==> InBounds(g, r[i]) && Adjacent(p, r[i])
  {
    var r := Unvisited(Neighbors(g, p), visited);
    forall i | 0 <= i < |r|
      ensures InBounds(g, r[i]) && Adjacent(p, r[i])
    {
      var x := r[i];
      assert x in Neighbors(g, p);
      assert 0 <= x.row < |g|;
      assert |g[x.row]| == |g[0]|;
    }
  }

  /** The four cells one orthogonal step from `p`. */
  lemma AdjacentCases(p: Pos, q: Pos)
    requires Adjacent(p, q)
    ensures q == Pos(p.row - 1, p.col) || q == Pos(p.row + 1, p.col)
         || q == Pos(p.row, p.col - 1) || q == Pos(p.row, p.col + 1)
  {
  }

  /** The node coordinates of one row, in order. */
  function RowPositions(row: seq<Node>): seq<Pos> {
    seq(|row|, i requires 0 <= i < |row| => Pos(row[i].row, row[i].col))
  }

  /** `getAllNodes`: every node, row by row, left to right; a rectangle gives rows times columns. */
  function AllNodes(g: Grid): (ps: seq<Pos>)
    ensures |g| > 0 && (forall r :: 0 <= r < |g| ==> |g[r]| == |g[0]|) ==> |ps| == |g| * |g[0]|
  {
    if |g| == 0 then [] else
      var pre := g[..|g| - 1];
      var ps := AllNodes(pre) + RowPositions(g[|g| - 1]);
      assert |pre| > 0 ==> |pre[0]| == |g[0]|;
      assert |g| * |g[0]| == (|g| - 1) * |g[0]| + |g[0]|;
      ps
  }

  /** `p` comes before `q` in row-major order. */
  predicate Before(p: Pos, q: Pos) {
    p.row < q.row || (p.row == q.row && p.col < q.col)
  }

  /** Positions listed strictly in row-major order. */
  ghost predicate RowMajor(ps: seq<Pos>) {
    forall i, j :: 0 <= i < j < |ps| ==> Before(ps[i], ps[j])
  }

  /** The row-major list holds every in-bounds node exactly once, and nothing else. */
  lemma {:induction false} AllNodesSpec(g: Grid)
    requires Coordinated(g)
    ensures Distinct(AllNodes(g))
    ensures forall p :: p in AllNodes(g) <==> InBounds(g, p)
    ensures RowMajor(AllNodes(g))
  {
    AllNodesRowMajor(g);
    if |g| > 0 {
      var k := |g| - 1;
      var pre := g[..k];
      assert Coordinated(pre);
      AllNodesSpec(pre);
      var a := AllNodes(pre);
      var b := RowPositions(g[k]);
      assert forall i :: 0 <= i < |b| ==> b[i] == Pos(k, i);
      assert forall p :: p in a ==> p.row < k;
      assert AllNodes(g) == a + b;
      forall p
        ensures p in a + b <==> InBounds(g, p)
      {
        if InBounds(g, p) && p.row == k {
          assert b[p.col] == p;
        }
        if InBounds(g, p) && p.row < k {
          assert InBounds(pre, p);
        }
      }
    }
  }

  /** `getAllNodes` walks the rows top to bottom and each row left to right. */
  lemma {:induction false} AllNodesRowMajor(g: Grid)
    requires Coordinated(g)
    ensures RowMajor(AllNodes(g))
    ensures forall p :: p in AllNodes(g) ==> p.row < |g|
  {
    if |g| > 0 {
      var k := |g| - 1;
      var pre := g[..k];
      assert Coordinated(pre);
      AllNodesRowMajor(pre);
      var b := RowPositions(g[k]);
      assert forall i :: 0 <= i < |b| ==> b[i] == Pos(k, i);
      RowMajorConcat(AllNodes(pre), b, k);
      assert AllNodes(g) == AllNodes(pre) + b;
    }
  }

  /** Rows above `k` in order, then row `k` left to right, stay in order. */
  lemma RowMajorConcat(a: seq<Pos>, b: seq<Pos>, k: int)
    requires RowMajor(a) && forall p :: p in a ==> p.row < k
    requires forall i :: 0 <= i < |b| ==> b[i] == Pos(k, i)
    ensures RowMajor(a + b)
  {
    var ab := a + b;
    forall i, j | 0 <= i < j < |ab|
      ensures Before(ab[i], ab[j])
    {
      if j < |a| {
        assert ab[i] == a[i] && ab[j] == a[j];
      } else if i < |a| {
        assert ab[i] == a[i] && a[i] in a;
      }
    }
  }
}

=== FILE: pathorder.dfy ===
/**
  `getNodesInShortestPathOrder` (src/components/ShortestPathVisualizer.tsx):
  walk the back-links from the finish node, prepending each node.
 */
module PathOrder {
  import opened Basics
  import opened PathGrid
  import opened PathSearch

  /**
    Walks `previousNode` links from `finish` until a node without one. Because
    every link points to a node settled earlier (`order`), the walk stops; the
    result ends at `finish`, starts at a node without a parent, repeats no node,
    and each node is the parent of the next. An unreached finish gives `[finish]`.
   */
  method NodesInShortestPathOrder(prev: map<Pos, Pos>, finish: Pos, ghost order: seq<Pos>)
    returns (path: seq<Pos>)
    requires ParentsEarlier(prev, order)
    ensures |path| >= 1 && path[|path| - 1] == finish
    ensures path[0] !in prev
    ensures FollowsLinks(prev, path)
    ensures forall i :: 0 <= i < |path| - 1 ==> path[i] in order
    ensures Distinct(path)
    ensures finish !in prev ==> path == [finish]
    ensures LinksAdjacent(prev) ==> Steps(path)
  {
    path := [finish];
    var current := finish;
    ghost var k := |order|;
    if finish in order {
      k :| 0 <= k < |order| && order[k] == finish;
    }
    ghost var ranks: seq<nat> := [k];
    while current in prev
      invariant |path| >= 1 && path[0] == current && path[|path| - 1] == finish
      invariant FollowsLinks(prev, path)
      invariant finish !in prev ==> path == [finish]
      invariant RankedPath(path, ranks, order, finish) && ranks[0] == k
      decreases k
    {
      var parent := prev[current];
      ghost var j: nat;
      if k < |order| {
        assert ParentBefore(prev, order, k);
        j :| 0 <= j < k && order[j] == parent;
      } else {
        j :| 0 <= j < |order| && order[j] == parent;
      }
      FollowsLinksCons(prev, parent, path);
      RankedPathCons(path, ranks, order, finish, parent, j);
      path := [parent] + path;
      ranks := [j] + ranks;
      current := parent;
      k := j;
    }
    RankedPathFacts(path, ranks, order, finish);
    if LinksAdjacent(prev) {
      forall i | 0 <= i < |path| - 1
        ensures StepAt(path, i)
      {
        assert LinkAt(prev, path, i);
        ManhattanSymmetric(path[i], path[i + 1]);
      }
    }
  }

  /**
    `ranks[i]` is the index of `path[i]` in `order` (or `|order|` for a finish
    that was never settled), strictly increasing along the path.
   */
  ghost predicate RankedPath(path: seq<Pos>, ranks: seq<nat>, order: seq<Pos>, finish: Pos) {
    && |ranks| == |path|
    && (forall i :: 0 <= i < |ranks| ==> ranks[i] <= |order|)
    && (forall i :: 0 <= i < |ranks| && ranks[i] < |order| ==> order[ranks[i]] == path[i])
    && (forall i :: 0 <= i < |ranks| && ranks[i] == |order| ==> path[i] == finish && finish !in order)
    && (forall i, j :: 0 <= i < j < |ranks| ==> ranks[i] < ranks[j])
  }

  lemma RankedPathCons(path: seq<Pos>, ranks: seq<nat>, order: seq<Pos>, finish: Pos, p: Pos, j: nat)
    requires RankedPath(path, ranks, order, finish) && |ranks| > 0
    requires j < ranks[0] && j < |order| && order[j] == p
    ensures RankedPath([p] + path, [j] + ranks, order, finish)
  {
    var rs := [j] + ranks;
    var ps := [p] + path;
    assert forall i :: 0 < i < |rs| ==> rs[i] == ranks[i - 1] && ps[i] == path[i - 1];
    forall a, b | 0 <= a < b < |rs|
      ensures rs[a] < rs[b]
    {
      if a == 0 {
        assert ranks[0] <= ranks[b - 1];
      }
    }
  }

  /** A ranked path repeats no node, and all its nodes but the last were settled. */
  lemma RankedPathFacts(path: seq<Pos>, ranks: seq<nat>, order: seq<Pos>, finish: Pos)
    requires Distinct(order) && |path| > 0
    requires RankedPath(path, ranks, order, finish)
    ensures Distinct(path)
    ensures forall i :: 0 <= i < |path| - 1 ==> path[i] in order
  {
    forall a, b | 0 <= a < b < |path|
      ensures path[a] != path[b]
    {
      assert ranks[a] < ranks[b];
      assert order[ranks[a]] == path[a];
    }
    forall i | 0 <= i < |path| - 1
      ensures path[i] in order
    {
      assert ranks[i] < ranks[|path| - 1];
      assert order[ranks[i]] == path[i];
    }
  }

  lemma FollowsLinksCons(prev: map<Pos, Pos>, parent: Pos, path: seq<Pos>)
    requires FollowsLinks(prev, path) && |path| > 0
    requires path[0] in prev && prev[path[0]] == parent
    ensures FollowsLinks(prev, [parent] + path)
  {
    var w := [parent] + path;
    forall i | 0 <= i < |w| - 1
      ensures LinkAt(prev, w, i)
    {
      if i > 0 {
        assert LinkAt(prev, path, i - 1);
      }
    }
  }
}

=== FILE: pathsearch.dfy ===
/**
  What the three searches of src/components/ShortestPathVisualizer.tsx have in
  common: the per-run node state they write, and the shape of their result
  (the settled order and the back-links it leaves behind).
 */
module PathSearch {
  import opened Basics
  import opened PathGrid

  /**
    The node fields a search writes, held in a side table keyed by position:
    `isVisited` as a set, a finite `distance` as a map entry (no entry is
    `Infinity`), and `previousNode` as a map to the parent's position. On a fresh
    board every table starts empty.
   */
  datatype RunState = RunState(visited: set<Pos>, dist: map<Pos, nat>, prev: map<Pos, Pos>)

  /** A node's `distance` as the source stores it. */
  function DistOf(dist: map<Pos, nat>, p: Pos): Dist {
    if p in dist then Fin(dist[p]) else Inf
  }

  /**
    Every back-link points at a settled node, and a settled node's parent was
    settled before it: following `prev` from any node must stop.
   */
  ghost predicate ParentsEarlier(prev: map<Pos, Pos>, order: seq<Pos>) {
    && Distinct(order)
    && (forall q :: q in prev ==> prev[q] in order)
    && (forall i :: 0 <= i < |order| ==> ParentBefore(prev, order, i))
  }

  /** The node at index `i` of `order`, if it has a parent, has one settled before it. */
  ghost predicate ParentBefore(prev: map<Pos, Pos>, order: seq<Pos>, i: int)
    requires 0 <= i < |order|
  {
    order[i] in prev ==> prev[order[i]] in order[..i]
  }

  /** The node after index `i` of `path` has `path[i]` as its parent. */
  ghost predicate LinkAt(prev: map<Pos, Pos>, path: seq<Pos>, i: int)
    requires 0 <= i < |path| - 1
  {
    path[i + 1] in prev && prev[path[i + 1]] == path[i]
  }

  /** Each node of `path` after the first has the one before it as its parent. */
  ghost predicate FollowsLinks(prev: map<Pos, Pos>, path: seq<Pos>) {
    forall i :: 0 <= i < |path| - 1 ==> LinkAt(prev, path, i)
  }

  /** Positions `i` and `i + 1` of `w` are orthogonal neighbours. */
  ghost predicate StepAt(w: seq<Pos>, i: int)
    requires 0 <= i < |w| - 1
  {
    Adjacent(w[i], w[i + 1])
  }

  /** Consecutive positions are orthogonal neighbours. */
  ghost predicate Steps(w: seq<Pos>) {
    forall i :: 0 <= i < |w| - 1 ==> StepAt(w, i)
  }

  /** Each back-link joins a node to an orthogonal neighbour. */
  ghost predicate LinksAdjacent(prev: map<Pos, Pos>) {
    forall q :: q in prev ==> Adjacent(q, prev[q])
  }

  /**
    The visited order of a run: no repeats, no walls, opened by the start node,
    closed by the finish node whenever it appears.
   */
  ghost predicate SettledOrder(g: Grid, start: Pos, finish: Pos, order: seq<Pos>) {
    && Distinct(order)
    && (forall i :: 0 <= i < |order| ==> InBounds(g, order[i]) && !IsWall(g, order[i]))
    && (|order| > 0 ==> order[0] == start)
    && (finish in order ==> order[|order| - 1] == finish)
  }

  /**
    The back-links of a run form a tree rooted at the start node: links join
    neighbours, point to earlier settled nodes, and every settled node but the
    start has one.
   */
  ghost predicate ParentTree(g: Grid, start: Pos, order: seq<Pos>, prev: map<Pos, Pos>) {
    && ParentsEarlier(prev, order)
    && LinksAdjacent(prev)
    && (forall q :: q in prev ==> InBounds(g, q))
    && start !in prev
    && (forall q :: q in order && q != start ==> q in prev)
  }

  /** No open (non-wall) neighbour of a settled node was left unsettled. */
  ghost predicate ClosedUnderMoves(g: Grid, order: seq<Pos>) {
    forall v, n :: v in order && InBounds(g, n) && Adjacent(v, n) && !IsWall(g, n) ==> n in order
  }

  /** A walk through open cells, one orthogonal step at a time. */
  ghost predicate OpenWalk(g: Grid, w: seq<Pos>) {
    && |w| > 0
    && (forall i :: 0 <= i < |w| ==> InBounds(g, w[i]) && !IsWall(g, w[i]))
    && Steps(w)
  }

  /** A settled set closed under moves contains every open walk that starts in it. */
  lemma {:induction false} ClosedContainsWalks(g: Grid, order: seq<Pos>, w: seq<Pos>)
    requires ClosedUnderMoves(g, order)
    requires OpenWalk(g, w) && w[0] in order
    ensures forall i :: 0 <= i < |w| ==> w[i] in order
  {
    var k := 0;
    while k < |w| - 1
      invariant 0 <= k < |w|
      invariant forall i :: 0 <= i <= k ==> w[i] in order
    {
      assert StepAt(w, k);
      k := k + 1;
    }
  }

  /** No open walk leads from `start` to `finish`. */
  ghost predicate NoOpenWalk(g: Grid, start: Pos, finish: Pos) {
    forall w :: OpenWalk(g, w) && w[0] == start ==> w[|w| - 1] != finish
  }

  /**
    The result every search leaves when it gives up without reaching the finish:
    no open walk leads from the start node to the finish node.
   */
  lemma NoWalkToFinish(g: Grid, start: Pos, finish: Pos, order: seq<Pos>)
    requires ClosedUnderMoves(g, order)
    requires start in order && finish !in order
    ensures NoOpenWalk(g, start, finish)
  {
    forall w | OpenWalk(g, w) && w[0] == start
      ensures w[|w| - 1] != finish
    {
      ClosedContainsWalks(g, order, w);
    }
  }

  /** Settling a new open node, the start first, keeps the visited order well formed. */
  lemma SettleKeepsOrder(g: Grid, start: Pos, finish: Pos, order: seq<Pos>, cur: Pos)
    requires SettledOrder(g, start, finish, order) && finish !in order
    requires InBounds(g, cur) && !IsWall(g, cur) && cur !in order
    requires |order| == 0 ==> cur == start
    ensures SettledOrder(g, start, finish, order + [cur])
  {
  }

  /** Settling a node that has a parent (or is the start) keeps the tree, with no new links. */
  lemma SettleKeepsTree(g: Grid, start: Pos, order: seq<Pos>, prev: map<Pos, Pos>, cur: Pos)
    requires ParentTree(g, start, order, prev)
    requires cur !in order && (cur == start || cur in prev)
    ensures ParentTree(g, start, order + [cur], prev)
  {
    var order' := order + [cur];
    forall i | 0 <= i < |order'|
      ensures ParentBefore(prev, order', i)
    {
      if i < |order| {
        assert order'[..i] == order[..i];
        assert order'[i] == order[i];
        assert ParentBefore(prev, order, i);
      } else {
        assert order'[..i] == order;
      }
    }
  }
}

=== FILE: pathsort.dfy ===
/**
  `sortNodesByDistance` of src/components/ShortestPathVisualizer.tsx: a stable
  `Array.prototype.sort` with the comparator `a.distance - b.distance`.
 */
module PathSort {
  import opened Basics
  import opened PathGrid
  import opened PathSearch

  /**
    The sign the sort reads from `a.distance - b.distance`. `Infinity - Infinity`
    is `NaN`, which the sort reads as `+0`, so two unreached nodes tie;
    `Infinity` minus a number is positive and a number minus `Infinity` negative.
   */
  function Compare(a: Dist, b: Dist): (r: int)
    ensures r < 0 <==> a.Fin? && (b.Inf? || a.n < b.n)
    ensures r == 0 <==> a == b
  {
    match (a, b)
    case (Inf, Inf) => 0
    case (Inf, Fin(_)) => 1
    case (Fin(_), Inf) => -1
    case (Fin(m), Fin(n)) => m - n
  }

  /** The order the comparator induces: every number below `Infinity`. */
  predicate DistLe(a: Dist, b: Dist) {
    b.Inf? || (a.Fin? && a.n <= b.n)
  }

  /** The comparator ranks `a` no later than `b` exactly when `DistLe(a, b)`. */
  lemma CompareMatchesOrder(a: Dist, b: Dist)
    ensures Compare(a, b) <= 0 <==> DistLe(a, b)
    ensures Compare(a, b) > 0 <==> !DistLe(a, b)
    ensures DistLe(a, b) || DistLe(b, a)
  {
  }

  /** A node's sort key. */
  function Key(dist: map<Pos, nat>, p: Pos): Dist {
    DistOf(dist, p)
  }

  /** Keys never decrease along `s`. */
  ghost predicate SortedBy(s: seq<Pos>, dist: map<Pos, nat>) {
    forall i, j :: 0 <= i < j < |s| ==> DistLe(Key(dist, s[i]), Key(dist, s[j]))
  }

  /** The nodes of `s` whose key is `k`, in their order in `s`. */
  function WithKey(s: seq<Pos>, dist: map<Pos, nat>, k: Dist): (r: seq<Pos>)
    ensures forall q :: q in r <==> q in s && Key(dist, q) == k
  {
    if |s| == 0 then []
    else if Key(dist, s[0]) == k then [s[0]] + WithKey(s[1..], dist, k)
    else WithKey(s[1..], dist, k)
  }

  /**
    Places `x` in front of the first element it does not rank after. Elements
    it passes rank strictly before it, so among equal keys `x` comes first.
   */
  function Insert(x: Pos, s: seq<Pos>, dist: map<Pos, nat>): (r: seq<Pos>)
    ensures |r| == |s| + 1
    ensures multiset(r) == multiset(s) + multiset{x}
  {
    if |s| == 0 then [x]
    else if Compare(Key(dist, x), Key(dist, s[0])) <= 0 then [x] + s
    else
      assert s == [s[0]] + s[1..];
      [s[0]] + Insert(x, s[1..], dist)
  }

  /**
    The stable sort: each element is inserted into the sorted rest of the
    sequence, ahead of the later elements with the same key.
   */
  function SortByDistance(s: seq<Pos>, dist: map<Pos, nat>): (r: seq<Pos>)
    ensures |r| == |s|
    ensures multiset(r) == multiset(s)
  {
    if |s| == 0 then []
    else
      assert s == [s[0]] + s[1..];
      Insert(s[0], SortByDistance(s[1..], dist), dist)
  }

  /** Inserting into a sorted sequence keeps it sorted. */
  lemma {:induction false} InsertSorted(x: Pos, s: seq<Pos>, dist: map<Pos, nat>)
    requires SortedBy(s, dist)
    ensures SortedBy(Insert(x, s, dist), dist)
    decreases |s|
  {
    if |s| > 0 && Compare(Key(dist, x), Key(dist, s[0])) > 0 {
      var t := Insert(x, s[1..], dist);
      InsertSorted(x, s[1..], dist);
      assert multiset(t) == multiset(s[1..]) + multiset{x};
      forall j | 0 <= j < |t|
        ensures DistLe(Key(dist, s[0]), Key(dist, t[j]))
      {
        assert t[j] in multiset(t);
        if t[j] == x {
          CompareMatchesOrder(Key(dist, x), Key(dist, s[0]));
        } else {
          assert t[j] in multiset(s[1..]);
          var k :| 0 <= k < |s[1..]| && s[1..][k] == t[j];
          assert s[k + 1] == t[j];
        }
      }
      ConsSorted(s[0], t, dist);
    } else if |s| > 0 {
      CompareMatchesOrder(Key(dist, x), Key(dist, s[0]));
      forall j | 0 <= j < |s|
        ensures DistLe(Key(dist, x), Key(dist, s[j]))
      {
        if j > 0 {
          assert DistLe(Key(dist, s[0]), Key(dist, s[j]));
        }
      }
      ConsSorted(x, s, dist);
    }
  }

  /** A node no later in key than every node of a sorted sequence can go in front of it. */
  lemma ConsSorted(h: Pos, t: seq<Pos>, dist: map<Pos, nat>)
    requires SortedBy(t, dist)
    requires forall j :: 0 <= j < |t| ==> DistLe(Key(dist, h), Key(dist, t[j]))
    ensures SortedBy([h] + t, dist)
  {
    var r := [h] + t;
    forall i, j | 0 <= i < j < |r|
      ensures DistLe(Key(dist, r[i]), Key(dist, r[j]))
    {
      assert r[j] == t[j - 1];
      if i > 0 {
        assert r[i] == t[i - 1];
      }
    }
  }

  /** The sort's result is ordered by key. */
  lemma {:induction false} SortSorted(s: seq<Pos>, dist: map<Pos, nat>)
    ensures SortedBy(SortByDistance(s, dist), dist)
    decreases |s|
  {
    if |s| > 0 {
      SortSorted(s[1..], dist);
      InsertSorted(s[0], SortByDistance(s[1..], dist), dist);
    }
  }

  /** Inserting `x` puts it at the front of the nodes sharing its key. */
  lemma {:induction false} InsertWithKey(x: Pos, s: seq<Pos>, dist: map<Pos, nat>, k: Dist)
    ensures WithKey(Insert(x, s, dist), dist, k) ==
            (if Key(dist, x) == k then [x] + WithKey(s, dist, k) else WithKey(s, dist, k))
    decreases |s|
  {
    if |s| == 0 {
    } else if Compare(Key(dist, x), Key(dist, s[0])) <= 0 {
      assert ([x] + s)[1..] == s;
    } else {
      var r := [s[0]] + Insert(x, s[1..], dist);
      assert r[1..] == Insert(x, s[1..], dist);
      InsertWithKey(x, s[1..], dist, k);
      if Key(dist, s[0]) == k {
        assert Key(dist, x) != k;
      }
    }
  }

  /** The sort is stable: nodes with equal keys keep their relative order. */
  lemma {:induction false} SortStable(s: seq<Pos>, dist: map<Pos, nat>, k: Dist)
    ensures WithKey(SortByDistance(s, dist), dist, k) == WithKey(s, dist, k)
    decreases |s|
  {
    if |s| > 0 {
      SortStable(s[1..], dist, k);
      InsertWithKey(s[0], SortByDistance(s[1..], dist), dist, k);
    }
  }

  /** After sorting, the head has the least key of all the nodes. */
  lemma SortHeadLeast(s: seq<Pos>, dist: map<Pos, nat>)
    requires |s| > 0
    ensures var r := SortByDistance(s, dist);
      forall q :: q in s ==> DistLe(Key(dist, r[0]), Key(dist, q))
  {
    var r := SortByDistance(s, dist);
    SortSorted(s, dist);
    forall q | q in s
      ensures DistLe(Key(dist, r[0]), Key(dist, q))
    {
      assert q in multiset(s);
      assert q in multiset(r);
      var j :| 0 <= j < |r| && r[j] == q;
      if j > 0 {
        assert DistLe(Key(dist, r[0]), Key(dist, r[j]));
      }
    }
  }
}

=== FILE: pathtraversal.dfy ===
/**
  `bfs` and `dfs` of src/components/ShortestPathVisualizer.tsx. Both keep a
  frontier seeded with the start node, mark a node visited only when it leaves
  the frontier, skip walls and already-visited nodes at that moment, stop as
  soon as the finish node is visited, and otherwise push every unvisited
  neighbour, overwriting its `previousNode`. They differ only in which end of
  the frontier they take from.
 */
module PathTraversal {
  import opened Basics
  import opened PathGrid
  import opened PathSearch

  /** `queue.shift()` for `bfs`, `stack.pop()` for `dfs`. */
  datatype Discipline = Fifo | Lifo

  /** Takes one entry out of a non-empty frontier: the oldest for `Fifo`, the newest for `Lifo`. */
  function Take(d: Discipline, f: seq<Pos>): (r: (Pos, seq<Pos>))
    requires |f| > 0
    ensures |r.1| == |f| - 1 && multiset(f) == multiset{r.0} + multiset(r.1)
    ensures d == Fifo ==> r.0 == f[0] && forall i :: 0 <= i < |r.1| ==> r.1[i] == f[i + 1]
    ensures d == Lifo ==> r.0 == f[|f| - 1] && forall i :: 0 <= i < |r.1| ==> r.1[i] == f[i]
  {
    if d == Fifo then
      assert f == [f[0]] + f[1..];
      (f[0], f[1..])
    else
      assert f == f[..|f| - 1] + [f[|f| - 1]];
      (f[|f| - 1], f[..|f| - 1])
  }

  /** Every grid position. */
  function Cells(g: Grid): set<Pos> {
    set r, c | 0 <= r < |g| && 0 <= c < |g[r]| :: Pos(r, c)
  }

  /** What the frontier may hold: in-bounds nodes that are the start or were given a parent. */
  ghost predicate FrontierOk(g: Grid, start: Pos, frontier: seq<Pos>, order: seq<Pos>, prev: map<Pos, Pos>) {
    && (forall q :: q in frontier ==> InBounds(g, q) && (q == start || q in prev))
    && (|order| == 0 ==> forall q :: q in frontier ==> q == start)
    && (|order| == 0 && InBounds(g, start) && !IsWall(g, start) ==> frontier == [start])
  }

  /** Each open neighbour of a settled node is settled or still waiting in the frontier. */
  ghost predicate Reached(g: Grid, order: seq<Pos>, frontier: seq<Pos>) {
    forall v, n :: v in order && InBounds(g, n) && Adjacent(v, n) && !IsWall(g, n) ==> n in order || n in frontier
  }

  /** The loop invariant shared by `bfs` and `dfs`. */
  ghost predicate TraversalInv(g: Grid, start: Pos, finish: Pos, frontier: seq<Pos>, order: seq<Pos>, st: RunState) {
    && WellFormed(g) && InBounds(g, start)
    && SettledOrder(g, start, finish, order)
    && finish !in order
    && (forall q :: q in st.visited <==> q in order)
    && ParentTree(g, start, order, st.prev)
    && st.dist == map[start := 0]
    && FrontierOk(g, start, frontier, order, st.prev)
    && Reached(g, order, frontier)
  }

  /**
    The search routine behind `bfs` (`Fifo`) and `dfs` (`Lifo`). The visited
    order opens with the start node (unless it is a wall), never repeats a node
    or holds a wall, and ends with the finish node when it holds it at all; the
    parent links form a tree over it. When the finish node was not reached,
    every open neighbour of a visited node was visited.
   */
  method Traverse(g: Grid, start: Pos, finish: Pos, d: Discipline) returns (order: seq<Pos>, st: RunState)
    requires WellFormed(g) && InBounds(g, start) && InBounds(g, finish)
    ensures SettledOrder(g, start, finish, order)
    ensures |order| > 0 <==> !IsWall(g, start)
    ensures forall q :: q in st.visited <==> q in order
    ensures ParentTree(g, start, order, st.prev)
    ensures st.dist == map[start := 0]
    ensures finish !in order ==> ClosedUnderMoves(g, order)
  {
    var frontier := [start];
    order := [];
    st := RunState({}, map[start := 0], map[]);
    InitKeeps(g, start, finish);
    while |frontier| > 0
      invariant TraversalInv(g, start, finish, frontier, order, st)
      invariant st.visited <= Cells(g)
      decreases |Cells(g) - st.visited|, |frontier|
    {
      var (cur, rest) := Take(d, frontier);
      assert cur in frontier by {
        assert cur in multiset(frontier);
      }
      TakeMembers(frontier, cur, rest);
      if IsWall(g, cur) || cur in st.visited {
        SkipKeeps(g, start, finish, frontier, cur, rest, order, st);
        frontier := rest;
      } else {
        var visited := st.visited + {cur};
        if cur == finish {
          FinishSettles(g, start, finish, frontier, order, st);
          order := order + [cur];
          st := st.(visited := visited);
          return;
        }
        var nbrs := UnvisitedNeighbors(g, cur, visited);
        VisitKeeps(g, start, finish, frontier, cur, rest, order, st, nbrs);
        order := order + [cur];
        VisitShrinks(g, st.visited, cur);
        st := st.(visited := visited, prev := st.prev + map q | q in nbrs :: cur);
        frontier := rest + nbrs;
      }
    }
    ExhaustedCloses(g, start, finish, order, st);
  }

  /** Visiting a new in-bounds node leaves fewer cells unvisited. */
  lemma VisitShrinks(g: Grid, visited: set<Pos>, cur: Pos)
    requires visited <= Cells(g) && InBounds(g, cur) && cur !in visited
    ensures visited + {cur} <= Cells(g)
    ensures |Cells(g) - (visited + {cur})| < |Cells(g) - visited|
  {
    assert cur in Cells(g);
    assert Cells(g) - (visited + {cur}) < Cells(g) - visited;
  }

  /** Settling the finish node, taken off the frontier, ends the run with the invariant's promises. */
  lemma FinishSettles(g: Grid, start: Pos, finish: Pos, frontier: seq<Pos>, order: seq<Pos>, st: RunState)
    requires TraversalInv(g, start, finish, frontier, order, st)
    requires finish in frontier && InBounds(g, finish) && !IsWall(g, finish) && finish !in st.visited
    ensures SettledOrder(g, start, finish, order + [finish])
    ensures !IsWall(g, start)
    ensures forall q :: q in st.visited + {finish} <==> q in order + [finish]
    ensures ParentTree(g, start, order + [finish], st.prev)
  {
    SettleKeepsTree(g, start, order, st.prev, finish);
    SettleKeepsOrder(g, start, finish, order, finish);
  }

  /** With the frontier empty, the start is settled unless it is a wall, and no open move leaves the settled set. */
  lemma ExhaustedCloses(g: Grid, start: Pos, finish: Pos, order: seq<Pos>, st: RunState)
    requires TraversalInv(g, start, finish, [], order, st)
    ensures |order| > 0 <==> !IsWall(g, start)
    ensures ClosedUnderMoves(g, order)
  {
  }

  /** The invariant holds for the frontier `[start]` with nothing settled. */
  lemma InitKeeps(g: Grid, start: Pos, finish: Pos)
    requires WellFormed(g) && InBounds(g, start)
    ensures TraversalInv(g, start, finish, [start], [], RunState({}, map[start := 0], map[]))
  {
  }

  lemma TakeMembers(frontier: seq<Pos>, cur: Pos, rest: seq<Pos>)
    requires multiset(frontier) == multiset{cur} + multiset(rest)
    ensures forall q :: q in frontier <==> q == cur || q in rest
  {
    forall q
      ensures q in frontier <==> q == cur || q in rest
    {
      assert q in frontier <==> q in multiset(frontier);
      assert q in rest <==> q in multiset(rest);
    }
  }

  /** Dropping a wall or an already-visited node keeps the invariant. */
  lemma SkipKeeps(g: Grid, start: Pos, finish: Pos, frontier: seq<Pos>, cur: Pos, rest: seq<Pos>,
                  order: seq<Pos>, st: RunState)
    requires TraversalInv(g, start, finish, frontier, order, st)
    requires forall q :: q in frontier <==> q == cur || q in rest
    requires |rest| == |frontier| - 1
    requires InBounds(g, cur) && (IsWall(g, cur) || cur in st.visited)
    ensures TraversalInv(g, start, finish, rest, order, st)
  {
  }

  /** Visiting a new node `cur` and pushing its unvisited neighbours keeps the invariant. */
  lemma VisitKeeps(g: Grid, start: Pos, finish: Pos, frontier: seq<Pos>, cur: Pos, rest: seq<Pos>,
                   order: seq<Pos>, st: RunState, nbrs: seq<Pos>)
    requires TraversalInv(g, start, finish, frontier, order, st)
    requires forall q :: q in frontier <==> q == cur || q in rest
    requires InBounds(g, cur) && !IsWall(g, cur) && cur !in st.visited && cur != finish
    requires nbrs == UnvisitedNeighbors(g, cur, st.visited + {cur})
    ensures TraversalInv(g, start, finish, rest + nbrs, order + [cur],
                         st.(visited := st.visited + {cur}, prev := st.prev + map q | q in nbrs :: cur))
  {
    var order' := order + [cur];
    var prev' := st.prev + map q | q in nbrs :: cur;
    var st' := st.(visited := st.visited + {cur}, prev := prev');
    assert |order| == 0 ==> cur == start;
    assert st.visited == Elements(order);
    SettleKeepsOrder(g, start, finish, order, cur);
    VisitKeepsTree(g, start, order, st.prev, cur, nbrs);
    VisitKeepsReached(g, order, frontier, cur, rest, nbrs);
    VisitKeepsFrontier(g, start, frontier, cur, rest, order, st.prev, nbrs);
  }

  lemma VisitKeepsFrontier(g: Grid, start: Pos, frontier: seq<Pos>, cur: Pos, rest: seq<Pos>,
                           order: seq<Pos>, prev: map<Pos, Pos>, nbrs: seq<Pos>)
    requires FrontierOk(g, start, frontier, order, prev)
    requires forall q :: q in frontier <==> q == cur || q in rest
    requires forall q :: q in nbrs ==> InBounds(g, q)
    ensures FrontierOk(g, start, rest + nbrs, order + [cur], prev + map q | q in nbrs :: cur)
  {
  }

  lemma VisitKeepsTree(g: Grid, start: Pos, order: seq<Pos>, prev: map<Pos, Pos>, cur: Pos, nbrs: seq<Pos>)
    requires WellFormed(g) && InBounds(g, cur)
    requires ParentTree(g, start, order, prev)
    requires cur !in order && (cur == start || cur in prev)
    requires |order| == 0 ==> cur == start
    requires |order| > 0 ==> order[0] == start
    requires nbrs == UnvisitedNeighbors(g, cur, Elements(order) + {cur})
    ensures ParentTree(g, start, order + [cur], prev + map q | q in nbrs :: cur)
  {
    assert forall q :: q in nbrs ==> q !in order && q != cur && q != start && InBounds(g, q) && Adjacent(cur, q);
    ExtendParents(order, prev, cur, nbrs);
    ExtendLinks(prev, cur, nbrs);
  }

  /** Linking fresh nodes to a newly settled node keeps parents settled earlier. */
  lemma ExtendParents(order: seq<Pos>, prev: map<Pos, Pos>, cur: Pos, nbrs: seq<Pos>)
    requires ParentsEarlier(prev, order)
    requires cur !in order
    requires forall q :: q in nbrs ==> q !in order && q != cur
    ensures ParentsEarlier(prev + map q | q in nbrs :: cur, order + [cur])
  {
    var order' := order + [cur];
    var prev' := prev + map q | q in nbrs :: cur;
    forall i | 0 <= i < |order'|
      ensures ParentBefore(prev', order', i)
    {
      if i < |order| {
        assert order'[..i] == order[..i];
        assert order'[i] == order[i];
        assert ParentBefore(prev, order, i);
      } else {
        assert order'[..i] == order;
      }
    }
  }

  /** Linking orthogonal neighbours of `cur` to it keeps every link between neighbours. */
  lemma ExtendLinks(prev: map<Pos, Pos>, cur: Pos, nbrs: seq<Pos>)
    requires LinksAdjacent(prev)
    requires forall q :: q in nbrs ==> Adjacent(cur, q)
    ensures LinksAdjacent(prev + map q | q in nbrs :: cur)
  {
    forall q | q in nbrs
      ensures Adjacent(q, cur)
    {
      ManhattanSymmetric(q, cur);
    }
  }

  lemma VisitKeepsReached(g: Grid, order: seq<Pos>, frontier: seq<Pos>, cur: Pos, rest: seq<Pos>, nbrs: seq<Pos>)
    requires WellFormed(g) && InBounds(g, cur)
    requires Reached(g, order, frontier)
    requires forall q :: q in frontier <==> q == cur || q in rest
    requires nbrs == UnvisitedNeighbors(g, cur, Elements(order) + {cur})
    ensures Reached(g, order + [cur], rest + nbrs)
  {
    forall v, n | v in order + [cur] && InBounds(g, n) && Adjacent(v, n) && !IsWall(g, n)
      ensures n in order + [cur] || n in rest + nbrs
    {
      if v == cur && n !in order && n != cur {
        assert n in nbrs;
      }
    }
  }
}

=== FILE: pathvisualizer.dfy ===
/**
  `visualizeAlgorithm` of src/components/ShortestPathVisualizer.tsx without the
  animation: run the selected search from the start node to the finish node of
  the board, then read the path back from the finish node's parent links.
 */
module PathVisualizer {
  import opened Basics
  import opened PathGrid
  import opened PathSearch
  import opened PathOrder
  import opened PathTraversal
  import opened PathAStar

  /** What would be animated: the visited order, then the path. */
  datatype Outcome = Outcome(visited: seq<Pos>, path: seq<Pos>)

  /** The selectors the dropdown offers; anything else leaves the board alone. */
  predicate KnownAlgorithm(algorithm: string) {
    algorithm == "astar" || algorithm == "bfs" || algorithm == "dfs"
  }

  /**
    What an outcome on board `g` promises. The visited order opens with the
    start node and holds no wall. The path ends at the finish node and steps
    between orthogonal neighbours without repeating a node. When the finish
    node was visited the path starts at the start node and runs through
    visited nodes only. Otherwise the path is just the finish node, and no
    open walk joins the two.
   */
  ghost predicate Explains(g: Grid, o: Outcome) {
    && SettledOrder(g, StartPos, FinishPos, o.visited)
    && |o.visited| > 0 && o.visited[0] == StartPos
    && |o.path| >= 1 && o.path[|o.path| - 1] == FinishPos
    && Steps(o.path) && Distinct(o.path)
    && (FinishPos in o.visited ==> o.path[0] == StartPos && forall i :: 0 <= i < |o.path| ==> o.path[i] in o.visited)
    && (FinishPos !in o.visited ==>
          o.path == [FinishPos] && NoOpenWalk(g, StartPos, FinishPos))
  }

  /**
    Runs `astar`, `bfs` or `dfs` on a board straight from `getInitialGrid` and
    wall toggles, and reads the path back; the outcome is as `Explains` says.
    An unknown selector returns `None`.
   */
  method VisualizeAlgorithm(g: Grid, algorithm: string) returns (r: Option<Outcome>)
    requires Board(g)
    ensures !KnownAlgorithm(algorithm) <==> r.None?
    ensures r.Some? ==> Explains(g, r.value)
  {
    if !KnownAlgorithm(algorithm) {
      return None;
    }
    var order, st := RunSearch(g, algorithm);
    var path := NodesInShortestPathOrder(st.prev, FinishPos, order);
    OutcomeSound(g, order, st.prev, path);
    return Some(Outcome(order, path));
  }

  /** What a search and the read-back path promise together is what `visualizeAlgorithm` promises. */
  lemma OutcomeSound(g: Grid, order: seq<Pos>, prev: map<Pos, Pos>, path: seq<Pos>)
    requires WellFormed(g) && InBounds(g, FinishPos) && !IsWall(g, FinishPos)
    requires SettledOrder(g, StartPos, FinishPos, order)
    requires |order| > 0 && order[0] == StartPos
    requires ParentTree(g, StartPos, order, prev)
    requires FinishPos !in order ==> ClosedUnderMoves(g, order)
    requires |path| >= 1 && path[|path| - 1] == FinishPos && path[0] !in prev
    requires forall i :: 0 <= i < |path| - 1 ==> path[i] in order
    requires FinishPos !in prev ==> path == [FinishPos]
    requires Steps(path) && Distinct(path)
    ensures Explains(g, Outcome(order, path))
  {
    if FinishPos !in order {
      UnreachedOutcome(g, order, prev, path);
    } else {
      ReachedOutcome(g, order, prev, path);
    }
  }

  /** A reached finish node: the path runs from the start node through visited nodes. */
  lemma ReachedOutcome(g: Grid, order: seq<Pos>, prev: map<Pos, Pos>, path: seq<Pos>)
    requires SettledOrder(g, StartPos, FinishPos, order)
    requires |order| > 0 && order[0] == StartPos && FinishPos in order
    requires forall q :: q in order && q != StartPos ==> q in prev
    requires |path| >= 1 && path[|path| - 1] == FinishPos && path[0] !in prev
    requires forall i :: 0 <= i < |path| - 1 ==> path[i] in order
    requires Steps(path) && Distinct(path)
    ensures Explains(g, Outcome(order, path))
  {
    ReachedPathFromStart(order, prev, path);
  }

  /** An unreached finish node: the path is just the finish node, and no open walk leads there. */
  lemma UnreachedOutcome(g: Grid, order: seq<Pos>, prev: map<Pos, Pos>, path: seq<Pos>)
    requires WellFormed(g) && InBounds(g, FinishPos) && !IsWall(g, FinishPos)
    requires SettledOrder(g, StartPos, FinishPos, order)
    requires |order| > 0 && order[0] == StartPos && FinishPos !in order
    requires ParentsEarlier(prev, order) && LinksAdjacent(prev)
    requires ClosedUnderMoves(g, order)
    requires |path| >= 1 && path[|path| - 1] == FinishPos
    requires FinishPos !in prev ==> path == [FinishPos]
    requires Steps(path) && Distinct(path)
    ensures Explains(g, Outcome(order, path))
  {
    NoWalkToFinish(g, StartPos, FinishPos, order);
    UnreachedHasNoParent(g, order, prev, FinishPos);
  }

  /** The `switch` on the selector: the three searches, each from the board's start to its finish. */
  method RunSearch(g: Grid, algorithm: string) returns (order: seq<Pos>, st: RunState)
    requires Board(g) && KnownAlgorithm(algorithm)
    ensures SettledOrder(g, StartPos, FinishPos, order)
    ensures |order| > 0 && order[0] == StartPos
    ensures ParentTree(g, StartPos, order, st.prev)
    ensures FinishPos !in order ==> ClosedUnderMoves(g, order)
  {
    if algorithm == "astar" {
      order, st := AStar(g, StartPos, FinishPos);
    } else if algorithm == "bfs" {
      order, st := Traverse(g, StartPos, FinishPos, Fifo);
    } else {
      order, st := Traverse(g, StartPos, FinishPos, Lifo);
    }
  }

  /** A path read back from a reached finish node starts at the start node and stays in the order. */
  lemma ReachedPathFromStart(order: seq<Pos>, prev: map<Pos, Pos>, path: seq<Pos>)
    requires forall q :: q in order && q != StartPos ==> q in prev
    requires |path| >= 1 && path[|path| - 1] == FinishPos && FinishPos in order
    requires path[0] !in prev
    requires forall i :: 0 <= i < |path| - 1 ==> path[i] in order
    ensures path[0] == StartPos
    ensures forall i :: 0 <= i < |path| ==> path[i] in order
  {
    if |path| > 1 {
      assert path[0] in order;
    }
  }

  /**
    When the settled set is closed under moves and misses the open finish node,
    no parent link leads to it: every link hangs off a settled node's neighbour.
   */
  lemma UnreachedHasNoParent(g: Grid, order: seq<Pos>, prev: map<Pos, Pos>, finish: Pos)
    requires ClosedUnderMoves(g, order)
    requires ParentsEarlier(prev, order) && LinksAdjacent(prev)
    requires InBounds(g, finish) && !IsWall(g, finish) && finish !in order
    ensures finish !in prev
  {
    if finish in prev {
      var p := prev[finish];
      ManhattanSymmetric(finish, p);
      assert p in order && Adjacent(p, finish);
    }
  }
}

=== FILE: shell.dfy ===
/**
  The toy shell of src/components/CommandLine.tsx: a history of lines and a
  working directory, changed by one command line at a time. Only `cd` touches
  the directory; the other commands answer with canned lines.
 */
module Shell {
  import opened JsStrings

  /** The component's state: the lines shown so far and the working directory. */
  datatype Terminal = Terminal(history: seq<string>, wd: string)

  /** What a command returns: its output lines, and the directory it leaves. */
  datatype Reply = Reply(lines: seq<string>, wd: string)

  const Home: string := "/home/user"

  /** The lines the mount effect puts in the history: a greeting, a hint, and a blank line. */
  const Welcome: seq<string> := [
    "Welcome to the Command Line Interface!",
    "Type 'help' for available commands.",
    ""
  ]

  /** The state once the component has mounted and its welcome effect has run. */
  const Start: Terminal := Terminal(Welcome, Home)

  // ---------------------------------------------------------------------
  // Slashes
  // ---------------------------------------------------------------------

  /** No two slashes in a row. */
  predicate NoDoubleSlash(s: string) {
    forall i :: 0 <= i < |s| - 1 ==> !(s[i] == '/' && s[i + 1] == '/')
  }

  /** `s` with every slash deleted. */
  function Unslashed(s: string): string {
    if |s| == 0 then ""
    else (if s[0] == '/' then "" else [s[0]]) + Unslashed(s[1..])
  }

  /**
    `s.replace(/\/+/g, '/')`: every run of slashes becomes one slash. The
    characters other than slashes stay as they are, and so do the first and
    last characters.
   */
  function CollapseSlashes(s: string): (r: string)
    ensures NoDoubleSlash(r)
    ensures Unslashed(r) == Unslashed(s)
    ensures |r| <= |s|
    ensures |s| > 0 ==> |r| > 0 && r[0] == s[0] && r[|r| - 1] == s[|s| - 1]
  {
    if |s| == 0 then ""
    else if |s| > 1 && s[0] == '/' && s[1] == '/' then
      DropSlash(s);
      CollapseSlashes(s[1..])
    else
      var rest := CollapseSlashes(s[1..]);
      ConsCollapsed(s, rest);
      [s[0]] + rest
  }

  /** Deleting a leading slash deletes no other character. */
  lemma DropSlash(s: string)
    requires |s| > 0 && s[0] == '/'
    ensures Unslashed(s) == Unslashed(s[1..])
  {
  }

  /**
    The step of `CollapseSlashes` that keeps the first character: when `rest`
    is a collapsed form of `s[1..]`, putting `s[0]` back in front gives a
    collapsed form of `s`.
   */
  lemma ConsCollapsed(s: string, rest: string)
    requires |s| > 0 && !(|s| > 1 && s[0] == '/' && s[1] == '/')
    requires NoDoubleSlash(rest) && Unslashed(rest) == Unslashed(s[1..]) && |rest| <= |s| - 1
    requires |s| > 1 ==> |rest| > 0 && rest[0] == s[1] && rest[|rest| - 1] == s[|s| - 1]
    ensures var r := [s[0]] + rest;
      && NoDoubleSlash(r) && Unslashed(r) == Unslashed(s) && |r| <= |s|
      && r[0] == s[0] && r[|r| - 1] == s[|s| - 1]
  {
    var r := [s[0]] + rest;
    ConsNoDoubleSlash(s[0], rest);
    assert r[1..] == rest;
  }

  /** A character put before a string without a double slash makes none unless both are slashes. */
  lemma ConsNoDoubleSlash(c: char, t: string)
    requires NoDoubleSlash(t)
    ensures NoDoubleSlash([c] + t) <==> |t| == 0 || c != '/' || t[0] != '/'
  {
    var u := [c] + t;
    if |t| == 0 || c != '/' || t[0] != '/' {
      forall i | 0 <= i < |u| - 1
        ensures !(u[i] == '/' && u[i + 1] == '/')
      {
        if i > 0 {
          assert u[i] == t[i - 1] && u[i + 1] == t[i];
        }
      }
    } else {
      assert u[0] == '/' && u[1] == '/';
    }
  }

  /** A string without a double slash is left as it is. */
  lemma {:induction false} CollapseClean(s: string)
    requires NoDoubleSlash(s)
    ensures CollapseSlashes(s) == s
    decreases |s|
  {
    if |s| > 0 {
      CollapseClean(s[1..]);
      assert s == [s[0]] + s[1..];
    }
  }

  /** Collapsing twice is collapsing once. */
  lemma CollapseIdempotent(s: string)
    ensures CollapseSlashes(CollapseSlashes(s)) == CollapseSlashes(s)
  {
    CollapseClean(CollapseSlashes(s));
  }

  /** Position of the last slash in `s`, or -1 when there is none. */
  function LastSlash(s: string): (k: int)
    ensures -1 <= k < |s|
    ensures k >= 0 ==> s[k] == '/'
    ensures forall i :: k < i < |s| ==> s[i] != '/'
  {
    if |s| == 0 then -1
    else if s[|s| - 1] == '/' then |s| - 1
    else LastSlash(s[..|s| - 1])
  }

  // ---------------------------------------------------------------------
  // Directories
  // ---------------------------------------------------------------------

  /**
    `cd ..`: `wd.split('/').slice(0, -1).join('/') || '/'`. The last
    slash-separated segment goes, together with the slash before it; when
    nothing is left the result is the root.
   */
  function ParentDir(wd: string): (r: string)
    ensures var k := LastSlash(wd); r == (if k <= 0 then "/" else wd[..k])
  {
    var parts := Split(wd, '/');
    var kept := Join(parts[..|parts| - 1], '/');
    ParentDirDropsLast(wd);
    if kept == "" then "/" else kept
  }

  /** Splitting at the slashes and dropping the last part leaves what precedes the last slash. */
  lemma ParentDirDropsLast(wd: string)
    ensures var parts := Split(wd, '/'); var k := LastSlash(wd);
      Join(parts[..|parts| - 1], '/') == if k < 0 then "" else wd[..k]
  {
    var k := LastSlash(wd);
    if k < 0 {
      assert '/' !in wd;
      SplitNoSep(wd, '/');
    } else {
      var a, b := wd[..k], wd[k + 1..];
      assert '/' !in b;
      assert wd == a + ['/'] + b;
      SplitSnoc(a, '/', b);
      var parts := Split(wd, '/');
      assert parts[..|parts| - 1] == Split(a, '/');
      JoinSplit(a, '/');
    }
  }

  /**
    `cd x` for any other `x`: append `/x`, then collapse the slashes. From a
    directory without a trailing or doubled slash, into a name without a
    slash, the result is exactly the directory, one slash, and the name.
   */
  function ChildDir(wd: string, x: string): (r: string)
    ensures NoDoubleSlash(r)
    ensures Unslashed(r) == Unslashed(wd) + Unslashed(x)
    ensures |r| > 0 && r[0] == (if wd == "" then '/' else wd[0])
    ensures NoDoubleSlash(wd) && (wd == "" || wd[|wd| - 1] != '/') && '/' !in x ==> r == wd + "/" + x
  {
    var s := wd + "/" + x;
    UnslashedAppend(wd, "/" + x);
    assert ("/" + x)[1..] == x;
    assert s == wd + ("/" + x);
    assert NoDoubleSlash(wd) && (wd == "" || wd[|wd| - 1] != '/') && '/' !in x ==> CollapseSlashes(s) == s by {
      if NoDoubleSlash(wd) && (wd == "" || wd[|wd| - 1] != '/') && '/' !in x {
        JoinClean(wd, x);
        CollapseClean(s);
      }
    }
    CollapseSlashes(s)
  }

  lemma {:induction false} UnslashedAppend(a: string, b: string)
    ensures Unslashed(a + b) == Unslashed(a) + Unslashed(b)
    decreases |a|
  {
    if |a| > 0 {
      assert (a + b)[1..] == a[1..] + b;
      UnslashedAppend(a[1..], b);
    } else {
      assert a + b == b;
    }
  }

  /** A directory the shell can be in: absolute, without a double slash. */
  predicate Rooted(wd: string) {
    |wd| > 0 && wd[0] == '/' && NoDoubleSlash(wd)
  }

  /** A rooted directory that does not end in a slash, unless it is the root. */
  predicate Normal(wd: string) {
    Rooted(wd) && (wd == "/" || wd[|wd| - 1] != '/')
  }

  /** Going into a plain name and back up returns to a normal directory. */
  lemma UpUndoesInto(wd: string, x: string)
    requires Normal(wd) && x != "" && '/' !in x
    ensures ParentDir(ChildDir(wd, x)) == wd
  {
    if wd == "/" {
      UpFromChildOfRoot(x);
    } else {
      UpFromChild(wd, x);
    }
  }

  lemma UpFromChildOfRoot(x: string)
    requires '/' !in x
    ensures ParentDir(ChildDir("/", x)) == "/"
  {
    assert "/" + "/" + x == ['/'] + ("/" + x);
    JoinClean("", x);
    CollapseClean("/" + x);
    LastSlashOfJoin("", x);
  }

  lemma UpFromChild(wd: string, x: string)
    requires NoDoubleSlash(wd) && |wd| > 0 && wd[|wd| - 1] != '/' && '/' !in x
    ensures ParentDir(ChildDir(wd, x)) == wd
  {
    var c := wd + "/" + x;
    JoinClean(wd, x);
    CollapseClean(c);
    LastSlashOfJoin(wd, x);
    assert c[..|wd|] == wd;
  }

  /** Joining a clean prefix that does not end in a slash to a plain name adds no double slash. */
  lemma JoinClean(a: string, x: string)
    requires NoDoubleSlash(a) && (a == "" || a[|a| - 1] != '/') && '/' !in x
    ensures NoDoubleSlash(a + "/" + x)
  {
    var c := a + "/" + x;
    forall i | 0 <= i < |c| - 1
      ensures !(c[i] == '/' && c[i + 1] == '/')
    {
      if i < |a| - 1 {
        assert c[i] == a[i] && c[i + 1] == a[i + 1];
      } else if i == |a| - 1 {
        assert c[i] == a[i];
      } else {
        assert c[i + 1] == x[i - |a|];
      }
    }
  }

  /** The last slash of `a/x`, for a plain name `x`, is the one just added. */
  lemma {:induction false} LastSlashOfJoin(a: string, x: string)
    requires '/' !in x
    ensures LastSlash(a + "/" + x) == |a|
    decreases |x|
  {
    var c := a + "/" + x;
    if |x| > 0 {
      var y := x[..|x| - 1];
      assert c[..|c| - 1] == a + "/" + y;
      assert c[|c| - 1] == x[|x| - 1];
      LastSlashOfJoin(a, y);
    }
  }

  /** Both moves keep the directory rooted. */
  lemma MovesStayRooted(wd: string, x: string)
    requires Rooted(wd)
    ensures Rooted(ParentDir(wd)) && Rooted(ChildDir(wd, x))
  {
    var k := LastSlash(wd);
    if k > 0 {
      assert ParentDir(wd) == wd[..k];
    }
  }

  /** `cd ..` at the root stays at the root. */
  lemma UpFromRoot()
    ensures ParentDir("/") == "/"
  {
    assert LastSlash("/") == 0;
  }

  // ---------------------------------------------------------------------
  // Commands
  // ---------------------------------------------------------------------

  const HelpLines: seq<string> := [
    "Available commands:",
    "  help     - Show this help message",
    "  ls       - List directory contents",
    "  cd       - Change directory",
    "  cat      - View file contents",
    "  touch    - Create a new file",
    "  rm       - Remove a file",
    "  clear    - Clear the terminal"
  ]

  const LsLines: seq<string> := ["Documents/", "Pictures/", "Downloads/", "example.txt", "README.md"]

  /** The seven entries of the `commands` table. */
  predicate KnownCommand(cmd: string) {
    cmd in {"help", "ls", "cd", "cat", "touch", "rm", "clear"}
  }

  /**
    `cd`: an empty argument is answered with a usage line and no move; `..`
    goes up one level; anything else goes down into it. Nothing is printed
    on a move.
   */
  function Cd(wd: string, arg: string): (r: Reply)
    ensures arg == "" ==> r == Reply(["Usage: cd <directory>"], wd)
    ensures arg != "" ==> r.lines == []
    ensures arg == ".." ==> r.wd == ParentDir(wd)
    ensures arg != "" && arg != ".." ==> r.wd == ChildDir(wd, arg)
  {
    if arg == "" then Reply(["Usage: cd <directory>"], wd)
    else if arg == ".." then Reply([], ParentDir(wd))
    else Reply([], ChildDir(wd, arg))
  }

  /** The argument string: everything after the first word, words joined by single spaces. */
  function Argument(words: seq<string>): (arg: string)
    requires |words| >= 1
    ensures |words| == 1 ==> arg == ""
    ensures |words| > 1 ==> Join(words, ' ') == words[0] + " " + arg
  {
    Join(words[1..], ' ')
  }

  /**
    `executeCommand`: the first word of the trimmed line names the command and
    the rest, re-joined, is its argument. Only `cd` moves; an unknown name is
    answered with one line. `clear` answers nothing: its emptying of the
    history is overwritten by the history update that follows.
   */
  function Execute(input: string, wd: string): (r: Reply)
    ensures Words(input)[0] != "cd" ==> r.wd == wd
    ensures Words(input)[0] == "cd" ==> r == Cd(wd, Argument(Words(input)))
    ensures Words(input)[0] == "help" ==> r.lines == HelpLines
    ensures Words(input)[0] == "ls" ==> r.lines == LsLines
    ensures var arg := Argument(Words(input)); Words(input)[0] == "cat" ==>
      r.lines == [if arg == "" then "Usage: cat <filename>" else "This is the content of " + arg]
    ensures var arg := Argument(Words(input)); Words(input)[0] == "touch" ==>
      r.lines == [if arg == "" then "Usage: touch <filename>" else "Created file: " + arg]
    ensures var arg := Argument(Words(input)); Words(input)[0] == "rm" ==>
      r.lines == [if arg == "" then "Usage: rm <filename>" else "Removed file: " + arg]
    ensures Words(input)[0] == "clear" ==> r.lines == []
    ensures var cmd := Words(input)[0]; !KnownCommand(cmd) ==>
      r.lines == ["Command not found: " + cmd + ". Type 'help' for available commands."]
  {
    var words := Words(input);
    var cmd := words[0];
    var arg := Argument(words);
    if cmd == "help" then Reply(HelpLines, wd)
    else if cmd == "ls" then Reply(LsLines, wd)
    else if cmd == "cd" then Cd(wd, arg)
    else if cmd == "cat" then Reply([if arg == "" then "Usage: cat <filename>" else "This is the content of " + arg], wd)
    else if cmd == "touch" then Reply([if arg == "" then "Usage: touch <filename>" else "Created file: " + arg], wd)
    else if cmd == "rm" then Reply([if arg == "" then "Usage: rm <filename>" else "Removed file: " + arg], wd)
    else if cmd == "clear" then Reply([], wd)
    else Reply(["Command not found: " + cmd + ". Type 'help' for available commands."], wd)
  }

  /** A line whose first and last characters are not white space trims to itself. */
  lemma TrimClean(s: string)
    requires |s| > 0 && !IsWhiteSpace(s[0]) && !IsWhiteSpace(s[|s| - 1])
    ensures Trim(s) == s
  {
  }

  /**
    Typing a file command and a name without spaces or slashes answers with
    exactly one line that names the file, and leaves the directory alone.
   */
  lemma FileCommandNamesFile(cmd: string, name: string, wd: string)
    requires cmd in {"cat", "touch", "rm"}
    requires name != "" && forall i :: 0 <= i < |name| ==> !IsWhiteSpace(name[i])
    ensures Execute(cmd + " " + name, wd).wd == wd
    ensures cmd == "cat" ==> Execute(cmd + " " + name, wd).lines == ["This is the content of " + name]
    ensures cmd == "touch" ==> Execute(cmd + " " + name, wd).lines == ["Created file: " + name]
    ensures cmd == "rm" ==> Execute(cmd + " " + name, wd).lines == ["Removed file: " + name]
  {
    TwoWords(cmd, name);
    assert Argument([cmd, name]) == name;
  }

  /** Two words without white space, joined by one space, split back into those two words. */
  lemma TwoWords(a: string, b: string)
    requires a != "" && forall i :: 0 <= i < |a| ==> !IsWhiteSpace(a[i])
    requires b != "" && forall i :: 0 <= i < |b| ==> !IsWhiteSpace(b[i])
    ensures Words(a + " " + b) == [a, b]
  {
    var line := a + " " + b;
    assert line == a + [' '] + b;
    assert line[0] == a[0] && line[|line| - 1] == b[|b| - 1];
    TrimClean(line);
    assert ' ' !in a && ' ' !in b by {
      assert IsWhiteSpace(' ');
    }
    SplitNoSep(b, ' ');
    SplitCons(a, ' ', b);
  }

  /**
    `handleCommand`: a blank line changes nothing; any other line is recorded
    behind the prompt of the directory it was typed in, followed by its output.
   */
  function HandleCommand(t: Terminal, input: string): (r: Terminal)
    ensures IsBlank(input) ==> r == t
    ensures !IsBlank(input) ==>
      var reply := Execute(input, t.wd);
      && r.history == t.history + [t.wd + "$ " + input] + reply.lines
      && r.wd == reply.wd
  {
    if Trim(input) == "" then t
    else
      var reply := Execute(input, t.wd);
      Terminal(t.history + [t.wd + "$ " + input] + reply.lines, reply.wd)
  }

  /** Every command line keeps the working directory rooted. */
  lemma HandleKeepsRooted(t: Terminal, input: string)
    requires Rooted(t.wd)
    ensures Rooted(HandleCommand(t, input).wd)
  {
    if !IsBlank(input) {
      var words := Words(input);
      var arg := Argument(words);
      MovesStayRooted(t.wd, arg);
      var r := Execute(input, t.wd);
      if words[0] == "cd" {
        assert r == Cd(t.wd, arg);
      } else {
        assert r.wd == t.wd;
      }
    }
  }

  /** The shell starts in a normal directory. */
  lemma StartNormal()
    ensures Normal(Start.wd)
    ensures |Start.history| == 3 && Start.history[0] == "Welcome to the Command Line Interface!"
    ensures Start.history[|Start.history| - 1] == ""
  {
  }

  /** The welcome lines stay at the top of the history whatever is typed first. */
  lemma WelcomeStays(input: string)
    ensures HandleCommand(Start, input).history[..|Welcome|] == Welcome
  {
    HistoryKeepsPast(Start, input);
  }

  /** Appending leaves the front of a sequence in place. */
  lemma AppendKeepsPrefix(a: seq<string>, b: seq<string>)
    ensures (a + b)[..|a|] == a
  {
  }

  /** A command line only appends to the history: what was there stays, in place. */
  lemma HistoryKeepsPast(t: Terminal, input: string)
    ensures |HandleCommand(t, input).history| >= |t.history|
    ensures HandleCommand(t, input).history[..|t.history|] == t.history
  {
    if !IsBlank(input) {
      var reply := Execute(input, t.wd);
      AppendKeepsPrefix(t.history, [t.wd + "$ " + input] + reply.lines);
    }
  }
}

=== FILE: snake.dfy ===
/**
  The step machine of src/components/SnakeGame.tsx: collision test, the move
  (slide or grow), food generation with the random draws passed in, the
  key-press rules and reset.
 */
module Snake {
  import opened Basics

  const GridSize: int := 20

  /** A board cell; `x` grows to the right, `y` downwards. */
  datatype Cell = Cell(x: int, y: int)

  datatype Game = Game(
    snake: seq<Cell>,
    direction: Cell,
    food: Cell,
    isGameOver: bool,
    isPaused: bool,
    score: nat)

  /** The keys the listener tells apart; everything else is `Other`. */
  datatype Key = Space | ArrowUp | ArrowDown | ArrowLeft | ArrowRight | Other

  function ParseKey(k: string): Key {
    if k == " " then Space
    else if k == "ArrowUp" then ArrowUp
    else if k == "ArrowDown" then ArrowDown
    else if k == "ArrowLeft" then ArrowLeft
    else if k == "ArrowRight" then ArrowRight
    else Other
  }

  predicate InGrid(c: Cell) {
    0 <= c.x < GridSize && 0 <= c.y < GridSize
  }

  /** The four headings a key press can give. */
  predicate UnitDirection(d: Cell) {
    d == Cell(0, -1) || d == Cell(0, 1) || d == Cell(-1, 0) || d == Cell(1, 0)
  }

  function Opposite(d: Cell): Cell {
    Cell(-d.x, -d.y)
  }

  function Shift(c: Cell, d: Cell): Cell {
    Cell(c.x + d.x, c.y + d.y)
  }

  /** The game `resetGame` restores, which is also the opening state. */
  function Initial(): (g: Game)
    ensures g.snake == [Cell(10, 10)] && g.direction == Cell(1, 0) && g.food == Cell(15, 10)
    ensures !g.isGameOver && g.isPaused && g.score == 0
  {
    Game([Cell(10, 10)], Cell(1, 0), Cell(15, 10), false, true, 0)
  }

  /** `checkCollision`: off the board, or onto any current segment, the tail included. */
  predicate Collides(snake: seq<Cell>, head: Cell) {
    !InGrid(head) || head in snake
  }

  /**
    The well-formed snake: a non-empty chain of distinct on-board cells, each
    segment one step from the next, heading in one of the four directions.
   */
  ghost predicate Valid(g: Game) {
    && |g.snake| > 0
    && (forall i :: 0 <= i < |g.snake| ==> InGrid(g.snake[i]))
    && Distinct(g.snake)
    && (forall i :: 0 <= i < |g.snake| - 1 ==> Touching(g.snake, i))
    && UnitDirection(g.direction)
    && InGrid(g.food)
  }

  /** Segments `i` and `i + 1` are one step apart. */
  ghost predicate Touching(s: seq<Cell>, i: int)
    requires 0 <= i < |s| - 1
  {
    exists d :: UnitDirection(d) && s[i + 1] == Shift(s[i], d)
  }

  /**
    `moveSnake`, given the cell `nextFood` that food generation returns should
    the head land on the food. Nothing moves while paused or over; a colliding
    head ends the game and leaves the snake; otherwise the head is prepended,
    and the tail dropped unless the food was eaten, in which case the score
    grows and the food moves to `nextFood`.
   */
  function Move(g: Game, nextFood: Cell): (r: Game)
    requires |g.snake| > 0
    ensures g.isGameOver || g.isPaused ==> r == g
    ensures !g.isGameOver && !g.isPaused && Collides(g.snake, Shift(g.snake[0], g.direction)) ==>
      r == g.(isGameOver := true)
    ensures !g.isGameOver && !g.isPaused && !Collides(g.snake, Shift(g.snake[0], g.direction)) ==>
      && !r.isGameOver && !r.isPaused && r.direction == g.direction
      && |r.snake| > 0 && r.snake[0] == Shift(g.snake[0], g.direction)
      && (Shift(g.snake[0], g.direction) != g.food ==>
            |r.snake| == |g.snake| && r.snake[1..] == g.snake[..|g.snake| - 1] && r.score == g.score && r.food == g.food)
      && (Shift(g.snake[0], g.direction) == g.food ==>
            |r.snake| == |g.snake| + 1 && r.snake[1..] == g.snake && r.score == g.score + 1 && r.food == nextFood)
  {
    if g.isGameOver || g.isPaused then g
    else
      var head := Shift(g.snake[0], g.direction);
      if Collides(g.snake, head) then g.(isGameOver := true)
      else if head == g.food then g.(snake := [head] + g.snake, food := nextFood, score := g.score + 1)
      else g.(snake := [head] + g.snake[..|g.snake| - 1])
  }

  /** Moving keeps the snake well formed, whenever the new food lies on the board. */
  lemma MoveKeepsValid(g: Game, nextFood: Cell)
    requires Valid(g) && InGrid(nextFood)
    ensures Valid(Move(g, nextFood))
  {
    var r := Move(g, nextFood);
    if !g.isGameOver && !g.isPaused {
      var head := Shift(g.snake[0], g.direction);
      if !Collides(g.snake, head) {
        forall i | 0 <= i < |r.snake| - 1
          ensures Touching(r.snake, i)
        {
          if i == 0 {
            assert r.snake[1] == g.snake[0];
            assert r.snake[1] == Shift(r.snake[0], Opposite(g.direction));
          } else {
            assert r.snake[i] == g.snake[i - 1] && r.snake[i + 1] == g.snake[i];
            assert Touching(g.snake, i - 1);
          }
        }
        forall i, j | 0 <= i < j < |r.snake|
          ensures r.snake[i] != r.snake[j]
        {
          assert r.snake[j] == g.snake[j - 1];
          if i > 0 {
            assert r.snake[i] == g.snake[i - 1];
          }
        }
      }
    }
  }

  /**
    The position of the first draw off `snake`, or -1 when every draw lands
    on it.
   */
  function FirstFree(snake: seq<Cell>, draws: seq<Cell>): (k: int)
    ensures -1 <= k < |draws|
    ensures k >= 0 ==> draws[k] !in snake
    ensures forall j :: 0 <= j < |draws| && (k < 0 || j < k) ==> draws[j] in snake
  {
    if |draws| == 0 then -1
    else if draws[0] !in snake then 0
    else
      var k := FirstFree(snake, draws[1..]);
      if k < 0 then -1 else k + 1
  }

  /**
    `generateFood` with `Math.random` replaced by the cells it would draw: the
    first draw not on `snake`, or `None` when every draw hits it (the source
    would keep drawing).
   */
  function GenerateFood(snake: seq<Cell>, draws: seq<Cell>): (r: Option<Cell>)
    ensures r.Some? ==> r.value in draws && r.value !in snake
    ensures r.None? <==> forall i :: 0 <= i < |draws| ==> draws[i] in snake
    ensures forall i :: 0 <= i < |draws| && draws[i] !in snake ==> r.Some? && r.value in draws[..i + 1]
  {
    var k := FirstFree(snake, draws);
    if k < 0 then None
    else
      assert forall i | k <= i < |draws| && draws[i] !in snake :: draws[k] in draws[..i + 1] by {
        forall i | k <= i < |draws| && draws[i] !in snake ensures draws[k] in draws[..i + 1] {
          assert draws[..i + 1][k] == draws[k];
        }
      }
      Some(draws[k])
  }

  /**
    One tick as the source runs it: food, when eaten, is drawn against the
    snake from before the move. `None` when the draws run out before a free cell.
   */
  function TickAsWritten(g: Game, draws: seq<Cell>): (r: Option<Game>)
    requires |g.snake| > 0
    ensures !Eats(g) ==> r == Some(Move(g, g.food))
    ensures Eats(g) ==> (r.None? <==> forall i :: 0 <= i < |draws| ==> draws[i] in g.snake)
    ensures Eats(g) && r.Some? ==>
      && r.value.snake == [Shift(g.snake[0], g.direction)] + g.snake
      && r.value.food in draws && r.value.food !in g.snake
  {
    if Eats(g) then
      match GenerateFood(g.snake, draws)
      case None => None
      case Some(c) =>
        var m := Move(g, c);
        assert m.snake == [m.snake[0]] + m.snake[1..];
        Some(m)
    else Some(Move(g, g.food))
  }

  /** The move goes ahead and its head lands on the food. */
  predicate Eats(g: Game)
    requires |g.snake| > 0
  {
    var head := Shift(g.snake[0], g.direction);
    !g.isGameOver && !g.isPaused && !Collides(g.snake, head) && head == g.food
  }

  /** One tick with food drawn against the snake after it has grown. */
  function Tick(g: Game, draws: seq<Cell>): (r: Option<Game>)
    requires |g.snake| > 0
    ensures !Eats(g) ==> r == Some(Move(g, g.food))
    ensures Eats(g) ==>
      (r.None? <==> forall i :: 0 <= i < |draws| ==> draws[i] in [Shift(g.snake[0], g.direction)] + g.snake)
    ensures Eats(g) && r.Some? ==>
      && r.value.snake == [Shift(g.snake[0], g.direction)] + g.snake
      && r.value.food in draws && r.value.food !in r.value.snake
  {
    if Eats(g) then
      match GenerateFood([Shift(g.snake[0], g.direction)] + g.snake, draws)
      case None => None
      case Some(c) =>
        var m := Move(g, c);
        assert m.snake == [m.snake[0]] + m.snake[1..];
        Some(m)
    else Some(Move(g, g.food))
  }

  /** The food lies off the snake. */
  ghost predicate FoodClear(g: Game) {
    g.food !in g.snake
  }

  /** With food drawn against the grown snake, a valid game keeps its food off the snake. */
  lemma TickKeepsFoodClear(g: Game, draws: seq<Cell>)
    requires Valid(g) && FoodClear(g)
    requires forall i :: 0 <= i < |draws| ==> InGrid(draws[i])
    ensures var r := Tick(g, draws); r.Some? ==> Valid(r.value) && FoodClear(r.value)
  {
    var r := Tick(g, draws);
    if r.Some? {
      var nextFood := if Eats(g) then r.value.food else g.food;
      MoveKeepsValid(g, nextFood);
      if !g.isGameOver && !g.isPaused && !Collides(g.snake, Shift(g.snake[0], g.direction)) && !Eats(g) {
        assert r.value.snake[0] != g.food;
        assert forall i :: 1 <= i < |r.value.snake| ==> r.value.snake[i] in g.snake;
      }
    }
  }

  /**
    As written, the new food may be placed on the cell the head just moved
    onto: here the snake at (10,10) heading right eats the food at (11,10),
    and the first draw, (11,10), is not on the snake from before the move.
   */
  lemma FoodCanLandOnHead()
    ensures var g := Initial().(isPaused := false, food := Cell(11, 10));
      && Valid(g) && FoodClear(g)
      && TickAsWritten(g, [Cell(11, 10)]).Some?
      && !FoodClear(TickAsWritten(g, [Cell(11, 10)]).value)
  {
    var g := Initial().(isPaused := false, food := Cell(11, 10));
    InitialValid();
    assert Valid(g) && FoodClear(g);
    assert Eats(g);
    assert GenerateFood(g.snake, [Cell(11, 10)]) == Some(Cell(11, 10));
    var r := Move(g, Cell(11, 10));
    assert r.snake[0] == Cell(11, 10) && r.food == Cell(11, 10);
  }

  /**
    `handleKeyPress`: space resets a finished game and otherwise toggles
    pause; while running, an arrow turns the snake unless it points straight
    back, and any other key keeps the heading.
   */
  function HandleKey(g: Game, k: Key): (r: Game)
    ensures k == Space && g.isGameOver ==> r == Initial()
    ensures k == Space && !g.isGameOver ==> r == g.(isPaused := !g.isPaused)
    ensures k != Space ==> r == g.(direction := r.direction)
    ensures k != Space && (g.isPaused || g.isGameOver) ==> r == g
    ensures k == Other ==> r == g
    ensures k != Space ==> r.direction != Opposite(g.direction) || r.direction == g.direction
    ensures k != Space && UnitDirection(g.direction) ==> UnitDirection(r.direction)
  {
    if k == Space then
      if g.isGameOver then Initial() else g.(isPaused := !g.isPaused)
    else if g.isPaused || g.isGameOver then g
    else
      var d := g.direction;
      var nd := match k
        case ArrowUp => if d.y == 1 then d else Cell(0, -1)
        case ArrowDown => if d.y == -1 then d else Cell(0, 1)
        case ArrowLeft => if d.x == 1 then d else Cell(-1, 0)
        case ArrowRight => if d.x == -1 then d else Cell(1, 0)
        case _ => d;
      g.(direction := nd)
  }

  /** A turn from a unit heading never reverses it. */
  lemma TurnNeverReverses(g: Game, k: Key)
    requires UnitDirection(g.direction) && k != Space
    ensures HandleKey(g, k).direction != Opposite(g.direction)
  {
    assert Opposite(g.direction) != g.direction;
  }

  /** An arrow press on a running game heads the named way unless that way is straight back. */
  lemma ArrowTurns(g: Game, k: Key)
    requires !g.isPaused && !g.isGameOver && UnitDirection(g.direction)
    requires k in {ArrowUp, ArrowDown, ArrowLeft, ArrowRight}
    ensures var want := match k
        case ArrowUp => Cell(0, -1)
        case ArrowDown => Cell(0, 1)
        case ArrowLeft => Cell(-1, 0)
        case _ => Cell(1, 0);
      HandleKey(g, k).direction == (if want == Opposite(g.direction) then g.direction else want)
  {
  }

  /** Key presses keep a valid game valid. */
  lemma HandleKeyKeepsValid(g: Game, k: Key)
    requires Valid(g)
    ensures Valid(HandleKey(g, k))
  {
  }

  /** The opening state is valid, with the food off the snake. */
  lemma InitialValid()
    ensures Valid(Initial()) && FoodClear(Initial())
  {
  }
}

=== FILE: store.dfy ===
/**
  The cart and checkout of src/components/ecommerce/EcommerceStore.tsx: adding
  and removing products, the running total, the end of a checkout, and the
  three field patterns the checkout form enforces. Prices are integer cents.
 */
module Store {
  import opened JsStrings

  /** A catalogue product; `price` in cents. */
  datatype Product = Product(id: int, name: string, price: nat)

  type Cart = seq<Product>

  datatype CheckoutForm = CheckoutForm(
    name: string, email: string, address: string,
    cardNumber: string, expiryDate: string, cvv: string)

  const BlankForm: CheckoutForm := CheckoutForm("", "", "", "", "", "")

  datatype Shop = Shop(
    cart: Cart,
    showCheckout: bool,
    form: CheckoutForm,
    isProcessing: bool,
    orderComplete: bool)

  /** The state the store mounts with. */
  const Opening: Shop := Shop([], false, BlankForm, false, false)

  /** The four products on sale. */
  const Catalogue: seq<Product> := [
    Product(1, "Gaming Laptop", 199999),
    Product(2, "Gaming Mouse", 7999),
    Product(3, "Gaming Headset", 12999),
    Product(4, "Mechanical Keyboard", 14999)
  ]

  // ---------------------------------------------------------------------
  // Cart
  // ---------------------------------------------------------------------

  /** `addToCart`: the product goes at the end and the earlier items stay. */
  function AddToCart(cart: Cart, p: Product): (r: Cart)
    ensures |r| == |cart| + 1
    ensures r[..|cart|] == cart && r[|cart|] == p
  {
    cart + [p]
  }

  /** `findIndex`: the first position holding `id`, or -1. */
  function FindIndex(cart: Cart, id: int): (i: int)
    ensures -1 <= i < |cart|
    ensures i >= 0 ==> cart[i].id == id
    ensures forall j :: 0 <= j < |cart| && (i < 0 || j < i) ==> cart[j].id != id
  {
    if |cart| == 0 then -1
    else if cart[0].id == id then 0
    else
      var i := FindIndex(cart[1..], id);
      if i < 0 then -1 else i + 1
  }

  /**
    `removeFromCart`: drops the first item with that id and keeps the rest in
    order; a cart without the id is left as it is.
   */
  function RemoveFromCart(cart: Cart, id: int): (r: Cart)
    ensures var i := FindIndex(cart, id);
      && (i < 0 ==> r == cart)
      && (i >= 0 ==> |r| == |cart| - 1 && r == cart[..i] + cart[i + 1..])
  {
    if |cart| == 0 then []
    else if cart[0].id == id then cart[1..]
    else
      var rest := RemoveFromCart(cart[1..], id);
      var k := FindIndex(cart[1..], id);
      if k < 0 then
        assert cart == [cart[0]] + cart[1..];
        [cart[0]] + rest
      else
        ConsSplice(cart, k);
        [cart[0]] + rest
  }

  /** Cutting position `k` out of the tail, then restoring the head, cuts position `k + 1`. */
  lemma ConsSplice(cart: Cart, k: int)
    requires 0 <= k < |cart| - 1
    ensures [cart[0]] + (cart[1..][..k] + cart[1..][k + 1..]) == cart[..k + 1] + cart[k + 2..]
  {
  }

  /** `cartTotal`: the sum of the item prices, in cents. */
  function CartTotal(cart: Cart): (t: nat)
    ensures forall i :: 0 <= i < |cart| ==> cart[i].price <= t
    ensures t == 0 <==> forall i :: 0 <= i < |cart| ==> cart[i].price == 0
  {
    if |cart| == 0 then 0 else cart[0].price + CartTotal(cart[1..])
  }

  /** The total of two carts laid end to end is the sum of their totals. */
  lemma {:induction false} TotalAppend(a: Cart, b: Cart)
    ensures CartTotal(a + b) == CartTotal(a) + CartTotal(b)
    decreases |a|
  {
    if |a| == 0 {
      assert a + b == b;
    } else {
      assert (a + b)[1..] == a[1..] + b;
      TotalAppend(a[1..], b);
    }
  }

  /** The empty cart costs nothing, and adding a product raises the total by its price. */
  lemma TotalAdd(cart: Cart, p: Product)
    ensures CartTotal([]) == 0
    ensures CartTotal(AddToCart(cart, p)) == CartTotal(cart) + p.price
  {
    TotalAppend(cart, [p]);
  }

  /** Removing an item lowers the total by exactly that item's price. */
  lemma TotalRemove(cart: Cart, id: int)
    ensures var i := FindIndex(cart, id);
      && (i < 0 ==> CartTotal(RemoveFromCart(cart, id)) == CartTotal(cart))
      && (i >= 0 ==> CartTotal(RemoveFromCart(cart, id)) + cart[i].price == CartTotal(cart))
  {
    var i := FindIndex(cart, id);
    if i >= 0 {
      TotalRemoveAt(cart, i);
    }
  }

  /** Cutting out the item at `i` lowers the total by exactly its price. */
  lemma TotalRemoveAt(cart: Cart, i: int)
    requires 0 <= i < |cart|
    ensures CartTotal(cart[..i] + cart[i + 1..]) + cart[i].price == CartTotal(cart)
  {
    SpliceParts(cart, i);
    TotalSplice(cart[..i], cart[i], cart[i + 1..]);
    TotalAppend(cart[..i], cart[i + 1..]);
  }

  /** A sequence is what comes before `i`, the element at `i`, and what comes after. */
  lemma SpliceParts(cart: Cart, i: int)
    requires 0 <= i < |cart|
    ensures cart == cart[..i] + [cart[i]] + cart[i + 1..]
  {
  }

  /** An item in the middle of a cart adds exactly its price to the total. */
  lemma TotalSplice(a: Cart, x: Product, b: Cart)
    ensures CartTotal(a + [x] + b) == CartTotal(a) + x.price + CartTotal(b)
  {
    assert a + [x] + b == a + ([x] + b);
    assert ([x] + b)[1..] == b;
    TotalAppend(a, [x] + b);
  }

  /** Adding a product whose id the cart lacks, then removing that id, gives the cart back. */
  lemma RemoveUndoesAdd(cart: Cart, p: Product)
    requires forall j :: 0 <= j < |cart| ==> cart[j].id != p.id
    ensures RemoveFromCart(AddToCart(cart, p), p.id) == cart
  {
    var r := AddToCart(cart, p);
    assert FindIndex(r, p.id) == |cart|;
    assert r[..|cart|] == cart;
  }

  // ---------------------------------------------------------------------
  // Checkout form patterns
  // ---------------------------------------------------------------------

  /**
    Whole-value match of `[0-9]{lo,hi}`, one character at a time: each step
    consumes a digit and lowers both bounds.
   */
  function DigitRun(s: string, lo: nat, hi: nat): (r: bool)
    ensures r <==> lo <= |s| <= hi && AllDigits(s)
  {
    if |s| == 0 then lo == 0
    else hi > 0 && IsDigit(s[0]) && DigitRun(s[1..], if lo > 0 then lo - 1 else 0, hi - 1)
  }

  /** `required` plus `pattern="[0-9]{16}"`. */
  predicate CardNumberOk(s: string) {
    s != "" && DigitRun(s, 16, 16)
  }

  /** `required` plus `pattern="[0-9]{3,4}"`. */
  predicate CvvOk(s: string) {
    s != "" && DigitRun(s, 3, 4)
  }

  /** The month alternative `0[1-9]|1[0-2]`. */
  predicate MonthOk(m: string) {
    |m| == 2 && ((m[0] == '0' && '1' <= m[1] <= '9') || (m[0] == '1' && '0' <= m[1] <= '2'))
  }

  /** `required` plus `pattern="(0[1-9]|1[0-2])\/([0-9]{2})"`. */
  predicate ExpiryOk(s: string) {
    |s| == 5 && MonthOk(s[..2]) && s[2] == '/' && DigitRun(s[3..], 2, 2)
  }

  /** Card numbers are exactly sixteen digits and CVVs three or four. */
  lemma CardAndCvvPatterns(s: string)
    ensures CardNumberOk(s) <==> |s| == 16 && AllDigits(s)
    ensures CvvOk(s) <==> (|s| == 3 || |s| == 4) && AllDigits(s)
  {
  }

  /** Two decimal digits for a number below 100. */
  function TwoDigits(n: nat): (r: string)
    requires n < 100
    ensures |r| == 2 && AllDigits(r) && DigitsValue(r) == n
  {
    var r := ['0' + (n / 10) as char, '0' + (n % 10) as char];
    assert DigitsValue(r[..1]) == DigitValue(r[0]) by {
      assert r[..1][..0] == [];
    }
    r
  }

  /** The expiry text for a month and a two-digit year. */
  function Expiry(month: nat, year: nat): string
    requires month < 100 && year < 100
  {
    TwoDigits(month) + "/" + TwoDigits(year)
  }

  /** The expiry pattern accepts `MM/YY` exactly when the month lies in 1..12. */
  lemma ExpiryAccepts(month: nat, year: nat)
    requires month < 100 && year < 100
    ensures ExpiryOk(Expiry(month, year)) <==> 1 <= month <= 12
  {
    var s := Expiry(month, year);
    assert s[..2] == TwoDigits(month) && s[3..] == TwoDigits(year);
  }

  /** A pair of digits is read as tens and units, and rendering the value gives the pair back. */
  lemma TwoDigitsReadBack(t: string)
    requires |t| == 2 && AllDigits(t)
    ensures DigitsValue(t) == 10 * DigitValue(t[0]) + DigitValue(t[1])
    ensures DigitsValue(t) < 100 && TwoDigits(DigitsValue(t)) == t
  {
    assert DigitsValue(t[..1]) == DigitValue(t[0]) by {
      assert t[..1][..0] == [];
    }
  }

  /** Every accepted expiry is the text of its month and year. */
  lemma ExpiryReadBack(s: string)
    requires ExpiryOk(s)
    ensures AllDigits(s[..2]) && AllDigits(s[3..])
    ensures 1 <= DigitsValue(s[..2]) <= 12 && DigitsValue(s[3..]) < 100
    ensures s == Expiry(DigitsValue(s[..2]), DigitsValue(s[3..]))
  {
    var m, y := s[..2], s[3..];
    TwoDigitsReadBack(m);
    TwoDigitsReadBack(y);
    assert s == m + "/" + y;
  }

  /**
    The browser lets the form submit only when every field is filled and the
    three patterns match; whether the email is well formed is passed in.
   */
  predicate FormSubmits(f: CheckoutForm, emailValid: bool) {
    && f.name != "" && f.address != "" && f.email != "" && emailValid
    && CardNumberOk(f.cardNumber) && ExpiryOk(f.expiryDate) && CvvOk(f.cvv)
  }

  // ---------------------------------------------------------------------
  // Checkout
  // ---------------------------------------------------------------------

  /** The Checkout button opens the form, and is disabled for an empty cart. */
  function OpenCheckout(s: Shop): (r: Shop)
    ensures r.showCheckout <==> s.showCheckout || |s.cart| > 0
    ensures r.cart == s.cart && r.form == s.form
    ensures r.isProcessing == s.isProcessing && r.orderComplete == s.orderComplete
  {
    if |s.cart| == 0 then s else s.(showCheckout := true)
  }

  /** Pressing Checkout again changes nothing, and an empty cart never opens the form. */
  lemma OpenCheckoutIdempotent(s: Shop)
    ensures OpenCheckout(OpenCheckout(s)) == OpenCheckout(s)
    ensures |s.cart| == 0 ==> OpenCheckout(s) == s
  {
  }

  /**
    `handleCheckout`, with both delays run out: payment completes, the cart is
    emptied, and after the success message the form is closed and cleared. A
    form the browser refuses does not submit.
   */
  function Checkout(s: Shop, emailValid: bool): (r: Shop)
    ensures !FormSubmits(s.form, emailValid) ==> r == s
    ensures FormSubmits(s.form, emailValid) ==>
      && r.cart == [] && CartTotal(r.cart) == 0
      && r.form == BlankForm
      && !r.showCheckout && !r.isProcessing && !r.orderComplete
  {
    if !FormSubmits(s.form, emailValid) then s
    else
      var paid := s.(isProcessing := false, orderComplete := true, cart := []);
      paid.(orderComplete := false, showCheckout := false, form := BlankForm)
  }

  /** A completed checkout leaves nothing a blank form could submit again. */
  lemma CheckoutClears(s: Shop, emailValid: bool)
    requires FormSubmits(s.form, emailValid)
    ensures !FormSubmits(Checkout(s, emailValid).form, emailValid)
    ensures Checkout(s, emailValid).cart == []
  {
  }
}
